=== FILE: README.md ===
# Local RAG: a Dafny model of the chat, upload and retrieval core

The system is a local retrieval-augmented chat application. A React page
lets the user upload documents, see and delete the ingested catalog, pick a
language-model provider and model, and chat. A FastAPI backend ingests each
upload into a vector store (conversion, chunking, embedding, storage),
answers a chat turn by retrieving context, building a prompt and streaming
an answer from one of four providers, and lists the local Ollama models.

This project models the deterministic part of that system in Dafny.

- **Client state machines.** Each asynchronous completion is a discrete
  event.
  - `ChatInterface` covers the chat panel: the input buffer, the history
    and the pending send.
  - `FileUpload` covers the upload widget's status, cached name and chunk
    count.
  - `DocumentList` covers the document catalog panel: the polled query,
    the display selector, the confirmed delete and the chunk label.
  - `App` covers the page shell: the provider, the model list and the
    selected model.
- **Backend transformations.**
  - `Server` (the endpoints): prompt and message assembly, the model
    default, stream accumulation, source snippets, model-list parsing,
    upload answers.
  - `LlmProvider`: dispatch by name, the Gemini and Anthropic reshaping,
    and in-band error strings.
  - `Retrieval`: formatting of a vector-store result.
  - `Ingest`: chunk ids and the metadata schema.
- **Shared pieces.** `Types` holds the wire types. `Text` holds the string
  operations: JavaScript `trim`, decimal rendering, `str.join`, slicing,
  concatenation and `os.path.basename`.
- **Cross-module properties.** `EndToEnd` relates the client to the
  backend: what the model receives for a submitted turn, which model name
  is used for the page's selection, and how an upload's name becomes its
  document id.

Foreign code is never interpreted. Its outcomes are inputs to the model:

- document conversion;
- text splitting;
- embeddings;
- the vector store;
- the provider SDKs;
- the HTTP transport.

Behaviours of the code the model keeps:

- `handleSubmit` has no pending check of its own
  (frontend/src/components/ChatInterface.tsx:29-43). Double sends are
  prevented only by the disabled text box and button (lines 97 and 101).
  `ChatInterface.Step` drops the events a disabled control cannot emit.
- The file input is disabled while an upload runs
  (frontend/src/components/FileUpload.tsx:45), so no new file can be
  chosen during an upload.
- The Gemini adapter builds `chat_history` but never sends it
  (backend/llm_provider.py:64-82). Only the last user message reaches the
  model, so neither the retrieved context nor earlier turns do
  (`EndToEnd.GeminiSeesOnlyTheMessage`).
- The default model is "gpt-4o" for every provider other than Ollama,
  Gemini and Anthropic included (backend/main.py:64).
- The page passes `selectedModel` to the chat whatever the provider
  (frontend/src/App.tsx:74). A model picked among Ollama's tags is
  therefore sent to another provider after a switch
  (`EndToEnd.SwitchKeepsOllamaModel`).
- `chat` calls `query_documents` before its `try` (backend/main.py:48), so
  any retrieval exception is a bare 500 with no detail. That covers the
  query embedding, the store query, and the formatting loop's index error
  or missing-metadata error. An adapter exception is a 500 carrying its
  text (backend/main.py:74-75).

The client's blank-input test `!input.trim()` is modelled by
`Text.IsBlank`: every character is white space.
`Text.TrimEmptyIffBlank` proves this equivalent to the model of JavaScript's
`trim` leaving the empty string. The vector store is a function from
the query `chat` issues to the store's answer or exception (`Server.Store`).
`Server.Chat` consults it only at the user's message with a count of 3
(backend/main.py:48). The LLM client is likewise a function from the call
the adapter makes to how the client behaves (`Server.Client`), and `Server.Chat`
applies it to the call built from this turn's hits and chosen model
(backend/main.py:51-69).

## Model

| member | source | states |
|---|---|---|
| Text.TrimEmptyIffBlank | frontend/src/components/ChatInterface.tsx:31 | `trim()` leaves nothing exactly when every character is JavaScript white space |
| Text.Decimal | backend/ingest.py:48 | a rendered index is a non-empty string of digits with no leading zero |
| Text.DecimalRoundTrip | backend/ingest.py:48 | reading back the digits of a rendered index gives the index |
| Text.DecimalInjective | backend/ingest.py:48 | distinct indexes render as distinct strings |
| Text.Join | backend/main.py:49 | the joined text has the parts' total length plus one separator between each pair of neighbours |
| Text.JoinSingle | backend/main.py:49 | a single part joins to itself, with no separator |
| Text.JoinSnoc | backend/main.py:49 | joining one more part appends the separator and then that part |
| Text.JoinCons | backend/main.py:49 | read from the front, the join is the first part, the separator, then the rest joined, so the parts appear in order with the separator between neighbours |
| Text.TotalLengthZeroIffAllEmpty | backend/main.py:49 | a list of pieces glues to nothing iff every piece is empty |
| Text.Take | backend/main.py:72 | slicing to 200 gives the first min(length, 200) characters of the content |
| Text.BaseStart | backend/ingest.py:47 | the base name starts just after the last slash, or at 0 when there is none |
| Text.ConcatAppend | backend/main.py:68-70 | gluing a split stream gives the glued halves one after the other |
| Text.BaseName | backend/ingest.py:47 | the base name is the suffix after the last slash: slash-free, and preceded by a slash when shorter than the path |
| ChatInterface.HandleSubmit | frontend/src/components/ChatInterface.tsx:29-43 | blank input changes nothing and sends nothing; otherwise one user turn with the raw input is appended last, the buffer is cleared, the send is pending, and the request's history plus its message is exactly the new history |
| ChatInterface.OnSettled | frontend/src/components/ChatInterface.tsx:18-27 | success and failure each append exactly one assistant turn, carrying the response text or the fixed error text, keeping all earlier turns |
| ChatInterface.Step | frontend/src/components/ChatInterface.tsx:89-105 | a request is issued only when the send button is enabled; while pending, typing and submitting change nothing |
| ChatInterface.InitialValid | frontend/src/components/ChatInterface.tsx:14-15 | the panel starts with empty input, empty history, nothing pending, and satisfies the turn invariant |
| ChatInterface.AppendKeepsAlternating | frontend/src/components/ChatInterface.tsx:21-34 | appending the role the next position expects keeps the user/assistant alternation |
| ChatInterface.StepPreservesValid | frontend/src/components/ChatInterface.tsx:18-43 | every event keeps turns alternating with pending iff a user turn is unanswered; a sent history holds whole turns |
| ChatInterface.RunPreservesValid | frontend/src/components/ChatInterface.tsx:18-43 | any event sequence from a valid panel leaves it valid |
| ChatInterface.HistoryAlternates | frontend/src/components/ChatInterface.tsx:18-43 | from a fresh panel the history starts with a user turn, alternates, and has even length when nothing is pending |
| ChatInterface.TurnAddsTwoEntries | frontend/src/components/ChatInterface.tsx:18-43 | a submit followed by its completion adds exactly the input and the reply, and leaves a valid idle panel |
| FileUpload.HandleFileChange | frontend/src/components/FileUpload.tsx:24-31 | an event without a file changes nothing and sends nothing; otherwise the first file is sent, its name shown, and the status is uploading before any answer |
| FileUpload.OnSuccess | frontend/src/components/FileUpload.tsx:14-18 | success sets the status and takes the answer's file name and chunk count |
| FileUpload.OnError | frontend/src/components/FileUpload.tsx:19-21 | failure sets the error status and keeps the cached name and count |
| FileUpload.Step | frontend/src/components/FileUpload.tsx:24-45 | an upload starts only from an enabled input and disables it; no event produces idle from another state |
| FileUpload.NeverBackToIdle | frontend/src/components/FileUpload.tsx:8-31 | once out of idle, no event sequence returns to idle |
| FileUpload.IdleIffNoFileChosen | frontend/src/components/FileUpload.tsx:8-31 | from the initial widget, still idle iff no file was ever handed over, and then the state is the initial one |
| DocumentList.EmptyNoticeIsExclusive | frontend/src/components/DocumentList.tsx:45 | the "no documents" notice shows iff not loading, no error and an empty snapshot, and then alone |
| DocumentList.ListShowsDespiteError | frontend/src/components/DocumentList.tsx:41-49 | the list shows iff not loading with a non-empty snapshot, shows that snapshot, and can show beside the error |
| DocumentList.ChunkLabelPlural | frontend/src/components/DocumentList.tsx:63 | the label is "1 chunk" exactly for one, ends in "s" otherwise, and starts with the count |
| DocumentList.View | frontend/src/components/DocumentList.tsx:34-49 | the spinner and error mirror react-query's `isLoading` and `isError`; loading hides the notice and the list; the notice and the list never show together; the list shows exactly the snapshot |
| DocumentList.QueryStep | frontend/src/components/DocumentList.tsx:9-13 | react-query v5 as assumed here: a fetch with no data sets loading and clears the error; a background refetch changes nothing; a success replaces the data; a failure keeps the data and sets the error |
| DocumentList.SettledFetchDisplay | frontend/src/components/DocumentList.tsx:34-49 | after a successful fetch, no spinner or error and exactly one of the notice (empty catalog) or the list (the catalog); after a failure, the error with the earlier snapshot still listed |
| DocumentList.FetchWithoutDataShowsSpinner | frontend/src/components/DocumentList.tsx:34-39 | a fetch while there is no data shows the spinner alone |
| DocumentList.HandleDelete | frontend/src/components/DocumentList.tsx:22-26 | a delete is requested iff confirmed, carrying exactly the record's id |
| DocumentList.Step | frontend/src/components/DocumentList.tsx:15-69 | deletes go out only for a confirmed click on a shown row with no delete pending; only a successful pending delete invalidates; only a successful fetch changes the snapshot |
| DocumentList.DeclinedDeleteIsNoop | frontend/src/components/DocumentList.tsx:22-26 | a declined confirmation issues nothing and changes nothing |
| DocumentList.DeleteLeavesSnapshot | frontend/src/components/DocumentList.tsx:15-20 | a delete's success or failure never edits the snapshot; success invalidates the query |
| DocumentList.FailedRefreshKeepsSnapshot | frontend/src/components/DocumentList.tsx:9-49 | a failed fetch keeps the last snapshot, raises the error, and a non-empty list stays shown |
| DocumentList.RunAppend | frontend/src/components/DocumentList.tsx:9-20 | running one more event is one more step after the run |
| DocumentList.SnapshotIsLastFetched | frontend/src/components/DocumentList.tsx:9-18 | after any events the snapshot is the one the last successful fetch carried |
| DocumentList.DeleteThenRefetchDropsRecord | frontend/src/components/DocumentList.tsx:15-26 | a confirmed delete, its success and a refetch without the record remove it from the shown rows |
| DocumentList.FirstLoadOutcomes | frontend/src/components/DocumentList.tsx:34-47 | a failed first load shows the error alone; an empty first catalog shows the notice alone |
| App.Mount | frontend/src/App.tsx:10-23 | the page starts on Ollama with no models and no selection, and the provider effect's first run, with no previous provider, fetches the model list |
| App.MountFetchSelectsFirstModel | frontend/src/App.tsx:14-23 | when the mount fetch answers with a non-empty list, the list is shown and its first name is the model the chat receives |
| App.OnModelsLoaded | frontend/src/App.tsx:17-19 | a loaded list replaces the models; the first model is selected when there is one, else the selection stays |
| App.ChatProps | frontend/src/App.tsx:74 | the chat receives the provider and the selected model whatever the provider |
| App.Step | frontend/src/App.tsx:14-62 | the model list is fetched exactly when the provider changes to Ollama from another provider; a switch keeps the selection and list; a failed fetch changes nothing |
| App.SelectionComesFromFetches | frontend/src/App.tsx:14-62 | whatever happens, the selection is empty or a name some fetch returned, and so is every listed model |
| LlmProvider.GetLlmProvider | backend/llm_provider.py:122-129 | each known name selects its provider and every other name selects Ollama |
| LlmProvider.DispatchInvertsName | backend/llm_provider.py:122-129 | a provider's own name dispatches back to it |
| LlmProvider.LastContentIsLast | backend/llm_provider.py:64-78 | a content is found iff some message has the role, and it is that of the last such message |
| LlmProvider.ConvertForGemini | backend/llm_provider.py:63-78 | the prompt is the last user message's content or "", and the history is the assistant turns in order as "model" turns |
| LlmProvider.WithoutSystemMembers | backend/llm_provider.py:98-104 | the filtered list holds exactly the non-system messages and is no longer than the input |
| LlmProvider.WithoutSystemAppend | backend/llm_provider.py:98-104 | filtering distributes over concatenation, so order is kept |
| LlmProvider.ConvertForAnthropic | backend/llm_provider.py:97-104 | the loop produces the non-system messages in order and the last system message's content |
| LlmProvider.SystemArgument | backend/llm_provider.py:113-114 | the system argument is passed iff the system text exists and is non-empty |
| LlmProvider.CallFor | backend/llm_provider.py:24-116 | each adapter passes the model unchanged and asks to stream; Ollama and OpenAI send the messages as they are; Gemini sends the last user content, or "" when there is none; Anthropic sends exactly the non-system messages in order, 1024 max tokens, and the last system text only when it is non-empty |
| LlmProvider.PassedOn | backend/llm_provider.py:83-85 | only pieces with text are passed on, never more than streamed; Gemini passes no empty text |
| LlmProvider.PassedOnKeepsText | backend/llm_provider.py:29-31 | dropping text-less pieces loses no text: the passed-on stream glues to the whole streamed text |
| LlmProvider.GenerateStream | backend/llm_provider.py:16-120 | a missing key yields one notice and stops; a client failure mid-stream yields one connection notice after the pieces; setup failures escape |
| LlmProvider.StreamNeverRaises | backend/llm_provider.py:42-52 | once streaming, the adapter never raises, and without a failure the answer is exactly the streamed text |
| Retrieval.HitAt | backend/retrieval.py:21-25 | where the loop body raises nothing, a hit has the document at its index, the entry's source or "Unknown", and the distance at its index or 0 |
| Retrieval.FormatHits | backend/retrieval.py:18-28 | formatting succeeds iff no index raises, giving one hit per first-query document in order; no documents field gives no hits |
| Retrieval.FormatResults | backend/retrieval.py:18-28 | the loop returns the reference formatting, including the exception of the first failing index |
| Retrieval.FormatPrefix | backend/retrieval.py:18-26 | the first n documents format iff none of them raises, one hit each in order; otherwise the result is the exception of the first index that raises |
| Retrieval.FirstProblemIsFinal | backend/retrieval.py:20-25 | once an index raises, the loop's result is that exception however many documents follow |
| Ingest.ChunkIdInjective | backend/ingest.py:48 | two ids of one file are equal iff their indexes are |
| Ingest.ChunkIds | backend/ingest.py:48 | id i is the base name, an underscore and i in decimal |
| Ingest.ChunkIdsDistinct | backend/ingest.py:46-48 | the ids of one call are pairwise distinct |
| Ingest.Metadatas | backend/ingest.py:51-59 | one record per chunk with its index, its id, the base name as source and document id, the version, model and width |
| Ingest.ProcessFile | backend/ingest.py:19-70 | foreign errors are re-raised; no chunks returns 0 and stores nothing; otherwise the chunks are stored with their ids and records and their count is returned |
| Ingest.StoredBatchIsConsistent | backend/ingest.py:36-67 | a stored batch has one document, id and record per counted chunk, with distinct ids; nothing is stored iff the count is 0 |
| Server.UploadDocument | backend/main.py:27-43 | the answer echoes the name, the ingested count and "Success"; any write or ingest failure is a 500 with its text |
| Server.JoinPath | backend/main.py:29 | an absolute name replaces the directory; otherwise the path is the directory, at most one inserted slash, then the name, with a slash just before the name |
| Server.ContextTextSingle | backend/main.py:49 | one hit's context text is its entry alone |
| Server.ContextTextSnoc | backend/main.py:49 | one more hit adds a blank line and then its entry at the end |
| Server.ContextTextCons | backend/main.py:49 | the first hit's entry opens the context text, followed by a blank line and the other hits' context text |
| Server.ContextTextEmptyIffNoHits | backend/main.py:49 | the context text is empty iff there are no hits |
| Server.SystemPromptShape | backend/main.py:52-56 | the prompt is the fixed instructions, the context header, then exactly the context text |
| Server.AssembleMessages | backend/main.py:58-60 | the messages are the system prompt, the history in order, then the user message: two more than the history |
| Server.ChooseModel | backend/main.py:64 | a non-empty request model wins; otherwise "llama3" for Ollama and "gpt-4o" for every other provider |
| Server.CollectResponse | backend/main.py:68-70 | the answer is the streamed pieces glued in order |
| Server.Sources | backend/main.py:72 | one source per hit, in order, with its source, no page and the first 200 characters of its content |
| Server.Retrieve | backend/main.py:48 | a failed query embedding or store query passes its exception on; otherwise the result is the formatting of the store's answer |
| Server.Chat | backend/main.py:45-75 | retrieval is asked for 3 hits for the user's message; any retrieval exception is a bare 500; the client is asked for the call built on those hits and the chosen model; an adapter exception is a 500 with its text; otherwise the answer is the glued stream with the hits' sources |
| Server.ChatAsksOnlyTheGroundedCall | backend/main.py:48-69 | the turn depends on the client only through its behaviour on the call built from this turn's hits, history, message and model |
| Server.ChatQueriesOnlyTheMessage | backend/main.py:48 | the turn depends on the store only through its answer to the user's message with a count of 3 |
| Server.ClientCallFor | backend/main.py:58-69 | the chosen adapter gets the chosen model; Ollama and OpenAI get the assembled messages unchanged; Gemini and Anthropic requests reach their own adapters |
| Server.Names | backend/main.py:89 | the names of the tag entries, in order |
| Server.GetModels | backend/main.py:81-93 | a 200 object answer gives the names in order, or none without a "models" key; every other outcome gives ["llama3"] |
| Server.ModelListEmptyOnlyWhenOllamaHasNone | backend/main.py:81-93 | the list is empty iff Ollama answered 200 with no models |
| EndToEnd.SubmittedTurnAppearsOnce | frontend/src/components/ChatInterface.tsx:33-41 | after the system prompt the model receives exactly the panel's history including the new turn, which appears once |
| EndToEnd.WithoutSystemKeepsDialogue | backend/llm_provider.py:98-104 | filtering a list with no system message returns it unchanged |
| EndToEnd.OnlySystemIsFirst | backend/llm_provider.py:100-102 | with a single leading system message, that message's text is the system text |
| EndToEnd.SplitLeadingSystem | backend/llm_provider.py:97-104 | a leading system message and a dialogue split back into the dialogue and the system text |
| EndToEnd.AnthropicCallForDialogue | backend/llm_provider.py:97-118 | for a history without system messages, Anthropic gets the history and the user turn, the prompt as system text, and 1024 tokens |
| EndToEnd.AnthropicSeesWholeDialogue | backend/main.py:58-60 | for a turn the panel submits, Anthropic's messages are exactly the panel's history after the append |
| EndToEnd.GeminiSeesOnlyTheMessage | backend/llm_provider.py:64-82 | Gemini receives only the request's message, never the context or earlier turns |
| EndToEnd.BackendModelFollowsSelection | frontend/src/App.tsx:74 | the backend uses the page's selection for every provider; only an empty selection falls back to the default |
| EndToEnd.SwitchKeepsOllamaModel | frontend/src/App.tsx:14-23 | after loading tags and switching provider, the first tag is still the model used |
| EndToEnd.DefaultRequestGoesToOllama | backend/models.py:8-12 | a request with only a message goes to Ollama with "llama3" and the system prompt and message alone |
| EndToEnd.OllamaTurnAnswersFromRetrievedHits | backend/main.py:48-75 | when the client streams without failing for the completions call whose system prompt is built on the retrieved hits, the reply is the streamed text and the sources are those hits' |
| EndToEnd.MissingMetadataFailsTheTurn | backend/retrieval.py:21-24 | a record without metadata makes `.get` raise, and the chat turn fails with a bare 500 |
| EndToEnd.BaseNameOfJoined | backend/main.py:29 | a slash-free name joined under a directory is its own base name |
| EndToEnd.UploadedNameIsDocumentId | backend/ingest.py:47-53 | for a plain file name, every stored record's source and document id equal the name the upload answer echoes |
| EndToEnd.FirstQuestionScenario | frontend/src/components/ChatInterface.tsx:18-43 | a typed question, its submit and a reply send the question with an empty history and leave exactly the two turns |
| EndToEnd.ReportUploadScenario | frontend/src/components/FileUpload.tsx:8-31 | choosing a file makes the widget upload it, and the answer shows its name and chunk count |

## Left out

- HTTP and framework plumbing are not modelled: the axios calls, routing, CORS, the `/health` endpoint and the environment-driven settings. The upload's file write, the tag request and the catalog fetch and delete appear only through their outcomes.
- The catalog transport is not modelled because its wire format is not defined anywhere in the source: `getDocuments`, `deleteDocument`, `getModels` and the `/documents` routes. A fetch or delete is an event that succeeds or fails.
- Document conversion, text splitting, embeddings and the vector store are inputs: the chunk list, the embedding width, and the store's query result or exception. The splitter's size and overlap settings are therefore not modelled.
- Embedding vectors and retrieval distances are floating point; a distance is an opaque token that is passed through unchanged.
- Retrieval metadata values are strings. A non-string "source" value is not modelled.
- Retrieval.FormatHits: the exception text of a failing embedding or store query is an input, not derived. Ingestion always writes a "source" key (backend/ingest.py:51-59), so the missing-metadata error cannot arise for records this system stored.
- The provider SDKs are inputs. For each call, the model says what the adapter hands the client (`LlmProvider.CallFor`) and takes what the client streams or raises as given. In particular, whether the Anthropic `messages.stream` helper accepts the `"stream": True` entry (backend/llm_provider.py:111) is a property of the SDK: a rejection would show up as a client that raises for that call. The adapters' default model parameters are unreachable, because the chat endpoint always passes a model.
- react-query internals are not modelled: the cache, retries, the ten-second refetch timer and the race between a refetch and an invalidation. Each becomes an ordering of discrete events.
- Rendering is not modelled: markdown, styling, icons, auto-scroll, and the text of the confirmation dialog. Only the display choice and the chunk label are.
- Text.BaseName, Server.JoinPath: follow POSIX `os.path` (`posixpath`), where only "/" separates path components. On Windows, `ntpath` also splits at "\\" and treats drive letters specially; that is not modelled.
- The `n_results=5` default of `query_documents` (backend/retrieval.py:11) is not modelled: the only caller passes 3.
- DocumentList.ChunkLabel: JavaScript renders a number of 10^21 or more in exponent form (`1e+21`); the model writes every count in decimal.
- Text.IsSpace: characters are Unicode code points, while JavaScript strings are UTF-16 code units. Surrogate pairs are not modelled, and no white-space character lies outside the basic plane.
- FileUpload.Step: a result arriving while no upload is running is dropped, because only one mutation can be in flight while the input is disabled.

=== FILE: app.dfy ===
/**
 * The page shell: the chosen provider, the local model list and the
 * selected model. The model list is fetched whenever the provider becomes
 * Ollama (including on mount); the selection is passed to the chat panel
 * whatever the provider.
 */
module App {
  import opened Types
  import ChatInterface

  datatype AppState = AppState(provider: Provider, models: seq<string>, selectedModel: string)

  /** The page on mount: Ollama, no models, nothing selected. */
  const Initial: AppState := AppState(Ollama, [], "")

  /**
   * Whether the provider effect fetches the model list. React runs the
   * effect on mount (no previous provider) and whenever the provider value
   * differs from the one of the previous render; the effect fetches only
   * for Ollama.
   */
  predicate EffectFetches(prev: Option<Provider>, p: Provider)
  {
    (prev.None? || prev.value != p) && p == Ollama
  }

  /** Mounting the page: the initial state, and the provider effect's first run. */
  function Mount(): (out: Stepped)
    ensures out.fetch
    ensures out.state.provider == Ollama && out.state.models == [] && out.state.selectedModel == ""
  {
    Stepped(Initial, EffectFetches(None, Initial.provider))
  }

  /**
   * The mount fetch is what first fills the model dropdown: once it
   * answers with a non-empty list, its first name is the model the chat
   * panel receives.
   */
  lemma MountFetchSelectsFirstModel(data: seq<string>)
    requires data != []
    ensures Mount().fetch
    ensures Run(Mount().state, [ModelsLoaded(data)]).models == data
    ensures ChatProps(Run(Mount().state, [ModelsLoaded(data)])).model == Some(data[0])
  {
    assert Run(Mount().state, [ModelsLoaded(data)]) == Run(OnModelsLoaded(Initial, data), []);
  }

  /** Success of the model fetch: the list is replaced; the first model is selected when there is one. */
  function OnModelsLoaded(st: AppState, data: seq<string>): (st': AppState)
    ensures st'.models == data && st'.provider == st.provider
    ensures data != [] ==> st'.selectedModel == data[0] && st'.selectedModel in st'.models
    ensures data == [] ==> st'.selectedModel == st.selectedModel
  {
    st.(models := data, selectedModel := if |data| > 0 then data[0] else st.selectedModel)
  }

  /** The props the chat panel receives: the selected model travels with every provider. */
  function ChatProps(st: AppState): (props: ChatInterface.Props)
    ensures props.provider == st.provider
    ensures props.model.Some? && props.model.value == st.selectedModel
  {
    ChatInterface.Props(st.provider, Some(st.selectedModel))
  }

  datatype Event =
    | ProviderChosen(p: Provider)
    | ModelsLoaded(data: seq<string>)
    | ModelsLoadFailed
    | ModelChosen(m: string)

  /** A state after an event, and whether the provider effect fetches the model list. */
  datatype Stepped = Stepped(state: AppState, fetch: bool)

  /**
   * One event. The provider effect runs when the provider value changes and
   * fetches only for Ollama. A failed fetch is only logged. The model
   * dropdown is rendered only for Ollama and offers only the listed models.
   */
  function Step(st: AppState, ev: Event): (out: Stepped)
    ensures out.fetch <==> ev.ProviderChosen? && ev.p == Ollama && st.provider != Ollama
    ensures ev.ProviderChosen? ==>
      && out.state.selectedModel == st.selectedModel
      && out.state.models == st.models
      && out.state.provider == ev.p
    ensures ev.ModelsLoadFailed? ==> out.state == st
  {
    match ev
    case ProviderChosen(p) =>
      Stepped(st.(provider := p), EffectFetches(Some(st.provider), p))
    case ModelsLoaded(data) =>
      Stepped(OnModelsLoaded(st, data), false)
    case ModelsLoadFailed =>
      Stepped(st, false)
    case ModelChosen(m) =>
      if st.provider == Ollama && m in st.models then Stepped(st.(selectedModel := m), false)
      else Stepped(st, false)
  }

  function Run(st: AppState, evs: seq<Event>): AppState
    decreases |evs|
  {
    if evs == [] then st else Run(Step(st, evs[0]).state, evs[1..])
  }

  /** Every model name some successful fetch in the list returned. */
  ghost function Offered(evs: seq<Event>): set<string>
    decreases |evs|
  {
    if evs == [] then {}
    else (if evs[0].ModelsLoaded? then set m | m in evs[0].data else {}) + Offered(evs[1..])
  }

  /** The selection is empty or a name from `names`, and every listed model is in `names`. */
  ghost predicate DrawnFrom(st: AppState, names: set<string>)
  {
    (st.selectedModel == "" || st.selectedModel in names)
    && forall m :: m in st.models ==> m in names
  }

  /**
   * Whatever the user does, the selected model is either still empty or a
   * name some model fetch returned, and so is every listed model: nothing
   * else ever reaches the chat panel as a model.
   */
  lemma {:induction false} SelectionComesFromFetches(st: AppState, names: set<string>, evs: seq<Event>)
    requires DrawnFrom(st, names)
    ensures DrawnFrom(Run(st, evs), names + Offered(evs))
    decreases |evs|
  {
    if evs != [] {
      var next := Step(st, evs[0]).state;
      var here := if evs[0].ModelsLoaded? then set m | m in evs[0].data else {};
      assert Offered(evs) == here + Offered(evs[1..]);
      assert DrawnFrom(next, names + here);
      SelectionComesFromFetches(next, names + here, evs[1..]);
      assert names + here + Offered(evs[1..]) == names + Offered(evs);
    }
  }
}

=== FILE: chat_interface.dfy ===
/**
 * The chat panel: an input buffer, the message history and the pending flag
 * of the one send mutation. Submitting appends the user turn at once and
 * sends the history as it was before that append; the send's completion
 * appends exactly one assistant turn, the reply or a fixed error text.
 */
module ChatInterface {
  import opened Types
  import opened Text

  /** The assistant text shown when a send fails. */
  const ErrorReply: string := "Error communicating with server."

  datatype ChatState = ChatState(input: string, history: seq<Message>, pending: bool)

  /** A fresh panel: nothing typed, no history, nothing in flight. */
  const Initial: ChatState := ChatState("", [], false)

  /** What the parent passes down: the selected provider and model. */
  datatype Props = Props(provider: Provider, model: Option<string>)

  /** A state after a handler ran, with the request it issued, if any. */
  datatype Submitted = Submitted(state: ChatState, request: Option<ChatRequest>)

  /** How the send mutation settled. */
  datatype SendOutcome = Replied(data: ChatResponse) | Failed

  /** The text of the assistant turn a settled send adds. */
  function ReplyText(outcome: SendOutcome): string
  {
    match outcome
    case Replied(data) => data.response
    case Failed => ErrorReply
  }

  /**
   * The form's submit handler. Blank input is ignored; otherwise the raw,
   * untrimmed input becomes the last history entry, the buffer is cleared,
   * and the request carries the input as its message and the history from
   * before the append, so the new turn is not duplicated.
   */
  function HandleSubmit(st: ChatState, props: Props): (out: Submitted)
    ensures IsBlank(st.input) <==> out.request == None
    ensures IsBlank(st.input) ==> out.state == st
    ensures !IsBlank(st.input) ==>
      && |out.state.history| == |st.history| + 1
      && out.state.history[..|st.history|] == st.history
      && out.state.history[|st.history|] == Message(User, st.input)
      && out.state.input == []
      && out.state.pending
    ensures out.request.Some? ==>
      && out.request.value.message == st.input
      && out.request.value.provider == props.provider
      && out.request.value.model == props.model
      && out.request.value.history + [Message(User, out.request.value.message)] == out.state.history
  {
    if IsBlank(st.input) then Submitted(st, None)
    else
      var userMsg := Message(User, st.input);
      Submitted(
        ChatState([], st.history + [userMsg], true),
        Some(ChatRequest(st.input, props.provider, props.model, st.history)))
  }

  /**
   * The mutation's success and error callbacks: one assistant turn is
   * appended either way, earlier entries and the buffer are untouched.
   */
  function OnSettled(st: ChatState, outcome: SendOutcome): (st': ChatState)
    ensures |st'.history| == |st.history| + 1
    ensures st'.history[..|st.history|] == st.history
    ensures st'.history[|st.history|].role == Assistant
    ensures outcome.Replied? ==> st'.history[|st.history|].content == outcome.data.response
    ensures outcome.Failed? ==> st'.history[|st.history|].content == ErrorReply
    ensures st'.input == st.input && !st'.pending
  {
    ChatState(st.input, st.history + [Message(Assistant, ReplyText(outcome))], false)
  }

  /** The text box is disabled while a send is in flight. */
  predicate InputDisabled(st: ChatState)
  {
    st.pending
  }

  /** The send button is disabled while a send is in flight or the trimmed input is empty. */
  predicate SendDisabled(st: ChatState)
  {
    st.pending || IsBlank(st.input)
  }

  /** What can happen to the panel. */
  datatype Event =
    | Typed(text: string)
    | Submit(props: Props)
    | Settled(outcome: SendOutcome)

  /**
   * One event. A disabled text box takes no typing and cannot submit the
   * form, and the button is disabled too, so while pending both are
   * dropped; a completion only arrives for the send in flight.
   */
  function Step(st: ChatState, ev: Event): (out: Submitted)
    ensures out.request.Some? ==> !SendDisabled(st)
    ensures st.pending && !ev.Settled? ==> out == Submitted(st, None)
  {
    match ev
    case Typed(text) =>
      if InputDisabled(st) then Submitted(st, None) else Submitted(st.(input := text), None)
    case Submit(props) =>
      if InputDisabled(st) then Submitted(st, None) else HandleSubmit(st, props)
    case Settled(outcome) =>
      if st.pending then Submitted(OnSettled(st, outcome), None) else Submitted(st, None)
  }

  /** The state after a sequence of events. */
  function Run(st: ChatState, evs: seq<Event>): ChatState
    decreases |evs|
  {
    if evs == [] then st else Run(Step(st, evs[0]).state, evs[1..])
  }

  /** Turns alternate: user at even positions, assistant at odd ones. */
  ghost predicate Alternating(h: seq<Message>)
  {
    forall i :: 0 <= i < |h| ==> h[i].role == (if i % 2 == 0 then User else Assistant)
  }

  /** The panel's invariant: alternating turns, and a send is pending exactly when a user turn awaits its answer. */
  ghost predicate Valid(st: ChatState)
  {
    Alternating(st.history) && (st.pending <==> |st.history| % 2 == 1)
  }

  lemma InitialValid()
    ensures Valid(Initial) && !Initial.pending && Initial.input == [] && Initial.history == []
  {
  }

  /** Appending the turn whose role the next position expects keeps turns alternating. */
  lemma AppendKeepsAlternating(h: seq<Message>, m: Message)
    requires Alternating(h)
    requires m.role == (if |h| % 2 == 0 then User else Assistant)
    ensures Alternating(h + [m])
  {
    forall i | 0 <= i < |h| + 1
      ensures (h + [m])[i].role == (if i % 2 == 0 then User else Assistant)
    {
      if i < |h| {
        assert (h + [m])[i] == h[i];
      }
    }
  }

  /** Every event keeps the invariant, and a request is only ever sent with whole turns as its history. */
  lemma StepPreservesValid(st: ChatState, ev: Event)
    requires Valid(st)
    ensures Valid(Step(st, ev).state)
    ensures Step(st, ev).request.Some? ==>
      |Step(st, ev).request.value.history| % 2 == 0 && Alternating(Step(st, ev).request.value.history)
  {
    match ev
    case Typed(_) =>
    case Submit(props) =>
      if !st.pending {
        var out := HandleSubmit(st, props);
        assert Step(st, ev) == out;
        if out.request.Some? {
          var m := Message(User, st.input);
          assert out.state.history == st.history + [m];
          AppendKeepsAlternating(st.history, m);
        }
      }
    case Settled(outcome) =>
      if st.pending {
        var m := Message(Assistant, ReplyText(outcome));
        assert Step(st, ev).state.history == st.history + [m];
        AppendKeepsAlternating(st.history, m);
      }
  }

  /** Any run from a valid state stays valid. */
  lemma {:induction false} RunPreservesValid(st: ChatState, evs: seq<Event>)
    requires Valid(st)
    ensures Valid(Run(st, evs))
    decreases |evs|
  {
    if evs != [] {
      StepPreservesValid(st, evs[0]);
      RunPreservesValid(Step(st, evs[0]).state, evs[1..]);
    }
  }

  /**
   * From a fresh panel, whatever happens: no assistant turn comes first,
   * turns alternate, and when nothing is in flight every completed turn has
   * contributed exactly two entries.
   */
  lemma {:induction false} HistoryAlternates(evs: seq<Event>)
    ensures Alternating(Run(Initial, evs).history)
    ensures |Run(Initial, evs).history| > 0 ==> Run(Initial, evs).history[0].role == User
    ensures !Run(Initial, evs).pending ==> |Run(Initial, evs).history| % 2 == 0
  {
    InitialValid();
    RunPreservesValid(Initial, evs);
  }

  /** A whole turn on a valid idle panel: submit, then settle, adds two entries: the input and the reply. */
  lemma {:induction false} TurnAddsTwoEntries(st: ChatState, props: Props, outcome: SendOutcome)
    requires Valid(st) && !st.pending && !IsBlank(st.input)
    ensures var mid := Step(st, Submit(props)).state;
      var end := Step(mid, Settled(outcome)).state;
      && end.history == st.history + [Message(User, st.input), Message(Assistant, ReplyText(outcome))]
      && Valid(end) && !end.pending
  {
    var mid := Step(st, Submit(props)).state;
    assert mid == HandleSubmit(st, props).state;
    assert mid.pending && mid.history == st.history + [Message(User, st.input)];
    var end := Step(mid, Settled(outcome)).state;
    assert end == OnSettled(mid, outcome);
    assert end.history == mid.history + [Message(Assistant, ReplyText(outcome))];
    assert end.history == st.history + [Message(User, st.input), Message(Assistant, ReplyText(outcome))];
    StepPreservesValid(st, Submit(props));
    StepPreservesValid(mid, Settled(outcome));
  }
}

=== FILE: document_list.dfy ===
/**
 * The ingested-documents panel: a polled query holding the last complete
 * catalog snapshot, a display selector over it, and a delete mutation gated
 * by a confirmation that, on success, invalidates the query instead of
 * removing anything locally.
 */
module DocumentList {
  import opened Types
  import opened Text

  /** A catalog entry, with the fields the panel reads. */
  datatype DocumentInfo = DocumentInfo(documentId: string, source: string, chunks: nat)

  /**
   * The documents query as the panel sees it: the last good snapshot, if
   * any, and the loading and error flags.
   */
  datatype QueryState = QueryState(data: Option<seq<DocumentInfo>>, isLoading: bool, isError: bool)

  /** Before the first answer: loading, no snapshot. */
  const InitialQuery: QueryState := QueryState(None, true, false)

  datatype ListState = ListState(query: QueryState, deletePending: bool)

  const Initial: ListState := ListState(InitialQuery, false)

  /** What the panel shows; `rows` is the rendered list, empty when no list is shown. */
  datatype Display = Display(loading: bool, error: bool, empty: bool, showList: bool, rows: seq<DocumentInfo>)

  /**
   * The display selector. Loading hides the notice and the list; the notice
   * and the list never show together; the list shows exactly the snapshot;
   * the error message is independent of both.
   */
  function View(q: QueryState): (d: Display)
    ensures d.loading == q.isLoading && d.error == q.isError
    ensures d.loading ==> !d.empty && !d.showList
    ensures !(d.empty && d.showList)
    ensures d.showList <==> d.rows != []
    ensures d.showList ==> q.data == Some(d.rows)
  {
    var hasData := q.data.Some?;
    Display(
      q.isLoading,
      q.isError,
      !q.isLoading && !q.isError && hasData && |q.data.value| == 0,
      !q.isLoading && hasData && |q.data.value| > 0,
      if !q.isLoading && hasData && |q.data.value| > 0 then q.data.value else [])
  }

  /** The "no documents" notice appears exactly when loaded, error-free and empty, and then alone. */
  lemma EmptyNoticeIsExclusive(q: QueryState)
    ensures View(q).empty <==> !q.isLoading && !q.isError && q.data == Some([])
    ensures View(q).empty ==> !View(q).loading && !View(q).error && !View(q).showList
  {
  }

  /** The list shows whenever loaded with a non-empty snapshot, whatever the error flag says. */
  lemma ListShowsDespiteError(q: QueryState)
    ensures View(q).showList <==> !q.isLoading && q.data.Some? && q.data.value != []
    ensures View(q).showList ==> View(q).rows == q.data.value
    ensures q.isError && View(q).showList ==> View(q).error
  {
  }

  /** The "chunk" label: singular for exactly one chunk. */
  function ChunkLabel(n: nat): string
  {
    Decimal(n) + " chunk" + (if n != 1 then "s" else "")
  }

  /** The label names the count it was given and is plural for every count but one. */
  lemma ChunkLabelPlural(n: nat)
    ensures ChunkLabel(n) == "1 chunk" <==> n == 1
    ensures n != 1 ==> ChunkLabel(n)[|ChunkLabel(n)| - 1] == 's'
    ensures ChunkLabel(n)[..|Decimal(n)|] == Decimal(n)
  {
    if ChunkLabel(n) == "1 chunk" {
      var d := Decimal(n);
      assert ChunkLabel(n)[|ChunkLabel(n)| - 1] != 's';
      assert |d| + 6 == 7;
      assert d == ChunkLabel(n)[..1] == "1";
      DecimalRoundTrip(n);
      assert DecimalValue("1") == 1;
    }
  }

  /** The delete request a click issues: only with confirmation, and carrying exactly the record's id. */
  function HandleDelete(doc: DocumentInfo, confirmed: bool): (request: Option<string>)
    ensures request.Some? <==> confirmed
    ensures request.Some? ==> request.value == doc.documentId
  {
    if confirmed then Some(doc.documentId) else None
  }

  /** What the panel asks of the transport. */
  datatype Effect = NoEffect | DeleteRequest(documentId: string) | InvalidateDocuments

  datatype Event =
    | FetchStarted
    | FetchSucceeded(docs: seq<DocumentInfo>)
    | FetchFailed
    | DeleteClicked(doc: DocumentInfo, confirmed: bool)
    | DeleteSucceeded
    | DeleteFailed

  datatype Stepped = Stepped(state: ListState, effect: Effect)

  /**
   * The query's part of an event. A fetch without a snapshot shows loading
   * and clears the error; a background refetch shows nothing. A success
   * replaces the snapshot wholesale; a failure keeps it and raises the
   * error flag.
   */
  function QueryStep(q: QueryState, ev: Event): (q': QueryState)
    ensures q'.data != q.data ==> ev.FetchSucceeded? && q'.data == Some(ev.docs)
    ensures ev.FetchSucceeded? ==> !q'.isLoading && !q'.isError
    ensures ev.FetchFailed? ==> q'.data == q.data && !q'.isLoading && q'.isError
    ensures ev.FetchStarted? && q.data.None? ==> q'.isLoading && !q'.isError
    ensures ev.FetchStarted? && q.data.Some? ==> q' == q
    ensures !ev.FetchStarted? && !ev.FetchSucceeded? && !ev.FetchFailed? ==> q' == q
  {
    match ev
    case FetchStarted => if q.data.None? then QueryState(None, true, false) else q
    case FetchSucceeded(docs) => QueryState(Some(docs), false, false)
    case FetchFailed => QueryState(q.data, false, true)
    case _ => q
  }

  /**
   * One event. Delete buttons exist only beside rendered rows and are all
   * disabled while a delete is pending; a declined confirmation does
   * nothing; a successful delete invalidates the documents query; a failed
   * one has no handler.
   */
  function Step(st: ListState, ev: Event): (out: Stepped)
    ensures out.effect.DeleteRequest? ==>
      && ev.DeleteClicked? && ev.confirmed && !st.deletePending
      && out.effect.documentId == ev.doc.documentId
      && ev.doc in View(st.query).rows
    ensures out.effect == InvalidateDocuments ==> ev.DeleteSucceeded? && st.deletePending
    ensures out.state.query.data != st.query.data ==> ev.FetchSucceeded?
  {
    match ev
    case DeleteClicked(doc, confirmed) =>
      if st.deletePending || doc !in View(st.query).rows then Stepped(st, NoEffect)
      else
        var request := HandleDelete(doc, confirmed);
        if request.None? then Stepped(st, NoEffect)
        else Stepped(st.(deletePending := true), DeleteRequest(request.value))
    case DeleteSucceeded =>
      if st.deletePending then Stepped(st.(deletePending := false), InvalidateDocuments)
      else Stepped(st, NoEffect)
    case DeleteFailed =>
      Stepped(st.(deletePending := false), NoEffect)
    case _ =>
      Stepped(st.(query := QueryStep(st.query, ev)), NoEffect)
  }

  /**
   * What a settled fetch shows: after a success, no spinner, no error, and
   * exactly one of the notice (empty catalog) or the list (the catalog);
   * after a failure, the error, with the earlier snapshot still listed.
   */
  lemma SettledFetchDisplay(st: ListState, docs: seq<DocumentInfo>)
    ensures var d := View(Step(st, FetchSucceeded(docs)).state.query);
      && !d.loading && !d.error
      && (d.empty <==> docs == []) && (d.showList <==> docs != [])
      && d.rows == docs
    ensures var d := View(Step(st, FetchFailed).state.query);
      && !d.loading && d.error && !d.empty
      && d.rows == (if st.query.data.Some? then st.query.data.value else [])
  {
  }

  /** A first fetch, or a retry after a failure without data, shows the spinner alone. */
  lemma FetchWithoutDataShowsSpinner(st: ListState)
    requires st.query.data.None?
    ensures View(Step(st, FetchStarted).state.query) == Display(true, false, false, false, [])
  {
  }

  /** A declined confirmation issues nothing and leaves the panel as it was. */
  lemma DeclinedDeleteIsNoop(st: ListState, doc: DocumentInfo)
    ensures Step(st, DeleteClicked(doc, false)) == Stepped(st, NoEffect)
  {
  }

  /** Deleting never edits the snapshot: success only invalidates, failure leaves it untouched. */
  lemma DeleteLeavesSnapshot(st: ListState)
    ensures Step(st, DeleteSucceeded).state.query == st.query
    ensures Step(st, DeleteFailed).state.query == st.query
    ensures st.deletePending ==> Step(st, DeleteSucceeded).effect == InvalidateDocuments
  {
  }

  /**
   * A failed refresh keeps the previous snapshot exactly; with a non-empty
   * snapshot the list stays on screen beside the error message.
   */
  lemma FailedRefreshKeepsSnapshot(st: ListState)
    ensures Step(st, FetchFailed).state.query.data == st.query.data
    ensures View(Step(st, FetchFailed).state.query).error
    ensures st.query.data.Some? && st.query.data.value != [] ==>
      View(Step(st, FetchFailed).state.query).rows == st.query.data.value
  {
  }

  function Run(st: ListState, evs: seq<Event>): ListState
    decreases |evs|
  {
    if evs == [] then st else Run(Step(st, evs[0]).state, evs[1..])
  }

  /** The snapshot after a run is the one the last successful fetch brought, or the starting one. */
  function LastFetched(start: Option<seq<DocumentInfo>>, evs: seq<Event>): Option<seq<DocumentInfo>>
    decreases |evs|
  {
    if evs == [] then start
    else if evs[|evs| - 1].FetchSucceeded? then Some(evs[|evs| - 1].docs)
    else LastFetched(start, evs[..|evs| - 1])
  }

  lemma {:induction false} RunAppend(st: ListState, evs: seq<Event>, ev: Event)
    ensures Run(st, evs + [ev]) == Step(Run(st, evs), ev).state
    decreases |evs|
  {
    if evs != [] {
      assert (evs + [ev])[1..] == evs[1..] + [ev];
      RunAppend(Step(st, evs[0]).state, evs[1..], ev);
    } else {
      assert evs + [ev] == [ev];
    }
  }

  /**
   * Last write wins: whatever deletes, failures and refetch starts happen,
   * the displayed snapshot is the one carried by the last successful fetch.
   */
  lemma {:induction false} SnapshotIsLastFetched(st: ListState, evs: seq<Event>)
    ensures Run(st, evs).query.data == LastFetched(st.query.data, evs)
    decreases |evs|
  {
    if evs != [] {
      var init := evs[..|evs| - 1];
      var last := evs[|evs| - 1];
      assert evs == init + [last];
      RunAppend(st, init, last);
      SnapshotIsLastFetched(st, init);
    }
  }

  /**
   * After a confirmed delete succeeds and the forced refetch returns a
   * catalog without the record, the record is gone from the panel.
   */
  lemma DeleteThenRefetchDropsRecord(st: ListState, doc: DocumentInfo, docs: seq<DocumentInfo>)
    requires !st.deletePending && doc in View(st.query).rows
    requires forall d :: d in docs ==> d.documentId != doc.documentId
    ensures var s1 := Step(st, DeleteClicked(doc, true));
      var s2 := Step(s1.state, DeleteSucceeded);
      var s3 := Step(s2.state, FetchSucceeded(docs));
      && s1.effect == DeleteRequest(doc.documentId)
      && s2.effect == InvalidateDocuments
      && forall d :: d in View(s3.state.query).rows ==> d.documentId != doc.documentId
  {
  }

  /** The first load failing shows the error alone; an empty catalog shows the notice, not the error. */
  lemma FirstLoadOutcomes(docs: seq<DocumentInfo>)
    ensures View(Step(Initial, FetchFailed).state.query) == Display(false, true, false, false, [])
    ensures View(Step(Initial, FetchSucceeded([])).state.query) == Display(false, false, true, false, [])
  {
  }
}

=== FILE: end_to_end.dfy ===
/**
 * Properties that span the client and the backend: what the model finally
 * receives for a turn the chat panel submitted, which model name the
 * backend uses for the page's selection, and how an uploaded file's name
 * becomes its document id.
 */
module EndToEnd {
  import opened Types
  import opened Text
  import ChatInterface
  import FileUpload
  import App
  import Retrieval
  import LlmProvider
  import Server
  import Ingest

  /**
   * A submitted turn reaches the model once, at the end: after the system
   * prompt come exactly the panel's entries including the new user turn.
   */
  lemma SubmittedTurnAppearsOnce(st: ChatInterface.ChatState, props: ChatInterface.Props, hits: seq<Retrieval.Hit>)
    requires !IsBlank(st.input)
    ensures var out := ChatInterface.HandleSubmit(st, props);
      && out.request.Some?
      && Server.AssembleMessages(out.request.value, hits)
         == [Message(System, Server.SystemPrompt(hits))] + out.state.history
  {
    var out := ChatInterface.HandleSubmit(st, props);
    var req := out.request.value;
    assert [Message(System, Server.SystemPrompt(hits))] + req.history + [Message(User, req.message)]
      == [Message(System, Server.SystemPrompt(hits))] + (req.history + [Message(User, req.message)]);
  }

  /** An alternating history holds no system messages. */
  lemma AlternatingHasNoSystem(h: seq<Message>)
    requires ChatInterface.Alternating(h)
    ensures forall i :: 0 <= i < |h| ==> h[i].role != System
  {
  }

  /** With no system message, filtering them out changes nothing. */
  lemma {:induction false} WithoutSystemKeepsDialogue(h: seq<Message>)
    requires forall i :: 0 <= i < |h| ==> h[i].role != System
    ensures LlmProvider.WithoutSystem(h) == h
    decreases |h|
  {
    if h != [] {
      var front := h[..|h| - 1];
      var m := h[|h| - 1];
      forall i | 0 <= i < |front|
        ensures front[i].role != System
      {
        assert front[i] == h[i];
      }
      WithoutSystemKeepsDialogue(front);
      assert LlmProvider.WithoutSystem(h) == LlmProvider.WithoutSystem(front) + [m];
      assert h == front + [m];
    }
  }

  /** The system text the Anthropic adapter finds is the first message's when no other message is a system one. */
  lemma OnlySystemIsFirst(ms: seq<Message>)
    requires |ms| > 0 && ms[0].role == System
    requires forall i :: 0 < i < |ms| ==> ms[i].role != System
    ensures LlmProvider.LastContent(ms, System) == Some(ms[0].content)
  {
    LlmProvider.LastContentIsLast(ms, System);
    var r := LlmProvider.LastContent(ms, System);
    assert r.Some?;
    var i :| 0 <= i < |ms| && ms[i] == Message(System, r.value)
      && forall j :: i < j < |ms| ==> ms[j].role != System;
    assert i == 0;
  }

  /** A leading system message followed by a dialogue splits back into the dialogue and that message's text. */
  lemma SplitLeadingSystem(sys: Message, dialogue: seq<Message>)
    requires sys.role == System
    requires forall i :: 0 <= i < |dialogue| ==> dialogue[i].role != System
    ensures LlmProvider.WithoutSystem([sys] + dialogue) == dialogue
    ensures LlmProvider.LastContent([sys] + dialogue, System) == Some(sys.content)
  {
    LlmProvider.WithoutSystemAppend([sys], dialogue);
    assert LlmProvider.WithoutSystem([sys]) == [] by {
      assert [sys][..0] == [];
    }
    WithoutSystemKeepsDialogue(dialogue);
    var ms := [sys] + dialogue;
    forall i | 0 < i < |ms|
      ensures ms[i].role != System
    {
      assert ms[i] == dialogue[i - 1];
    }
    OnlySystemIsFirst(ms);
  }

  /**
   * For a request whose history holds no system message, the Anthropic
   * adapter sends the history and the new user turn, in order, as its
   * messages and the retrieval prompt as its non-empty system text.
   */
  lemma AnthropicCallForDialogue(req: ChatRequest, hits: seq<Retrieval.Hit>)
    requires req.provider == Anthropic
    requires forall i :: 0 <= i < |req.history| ==> req.history[i].role != System
    ensures Server.ClientCallFor(req, hits) == LlmProvider.AnthropicCall(
      Server.ChooseModel(req),
      req.history + [Message(User, req.message)],
      Some(Server.SystemPrompt(hits)),
      LlmProvider.AnthropicMaxTokens,
      true)
  {
    var sys := Message(System, Server.SystemPrompt(hits));
    var dialogue := req.history + [Message(User, req.message)];
    var ms := Server.AssembleMessages(req, hits);
    assert ms == [sys] + dialogue;
    assert forall i :: 0 <= i < |dialogue| ==> dialogue[i].role != System;
    SplitLeadingSystem(sys, dialogue);
    assert Server.SystemPrompt(hits) != [] by {
      Server.SystemPromptShape(hits);
    }
    assert LlmProvider.GetLlmProvider(ProviderName(req.provider)) == Anthropic;
  }

  /**
   * For a turn the panel submits to Anthropic, the adapter's messages are
   * exactly the panel's history after the append.
   */
  lemma AnthropicSeesWholeDialogue(st: ChatInterface.ChatState, props: ChatInterface.Props, hits: seq<Retrieval.Hit>)
    requires ChatInterface.Valid(st) && !st.pending && !IsBlank(st.input)
    requires props.provider == Anthropic
    ensures var out := ChatInterface.Step(st, ChatInterface.Submit(props));
      && out.request.Some?
      && Server.ClientCallFor(out.request.value, hits) == LlmProvider.AnthropicCall(
           Server.ChooseModel(out.request.value),
           out.state.history,
           Some(Server.SystemPrompt(hits)),
           LlmProvider.AnthropicMaxTokens,
           true)
  {
    var out := ChatInterface.Step(st, ChatInterface.Submit(props));
    assert out == ChatInterface.HandleSubmit(st, props);
    ChatInterface.StepPreservesValid(st, ChatInterface.Submit(props));
    var req := out.request.value;
    AlternatingHasNoSystem(req.history);
    AnthropicCallForDialogue(req, hits);
  }

  /**
   * Whatever the history and the retrieved context, the Gemini adapter
   * sends only the request's own message: neither the system prompt nor
   * earlier turns reach it.
   */
  lemma GeminiSeesOnlyTheMessage(req: ChatRequest, hits: seq<Retrieval.Hit>)
    requires req.provider == Gemini
    ensures Server.ClientCallFor(req, hits) == LlmProvider.GeminiCall(Server.ChooseModel(req), req.message, true)
  {
    var ms := Server.AssembleMessages(req, hits);
    assert ms[|ms| - 1] == Message(User, req.message);
    assert LlmProvider.LastContent(ms, User) == Some(req.message);
    assert LlmProvider.GetLlmProvider(ProviderName(req.provider)) == Gemini;
  }

  /**
   * The backend uses the page's selected model for every provider; only an
   * empty selection falls back to the provider default. A model picked
   * among Ollama's tags is thus sent to OpenAI, Gemini or Anthropic after a
   * provider switch.
   */
  lemma BackendModelFollowsSelection(st: App.AppState, message: string, history: seq<Message>)
    ensures var props := App.ChatProps(st);
      var model := Server.ChooseModel(ChatRequest(message, props.provider, props.model, history));
      && (st.selectedModel != "" ==> model == st.selectedModel)
      && (st.selectedModel == "" ==> model == (if st.provider == Ollama then "llama3" else "gpt-4o"))
  {
  }

  /** The selection survives a switch away from Ollama and then names the model sent to the new provider. */
  lemma SwitchKeepsOllamaModel(tags: seq<string>, p: Provider, message: string)
    requires tags != [] && tags[0] != ""
    ensures var loaded := App.Step(App.Initial, App.ModelsLoaded(tags)).state;
      var switched := App.Step(loaded, App.ProviderChosen(p)).state;
      var props := App.ChatProps(switched);
      Server.ChooseModel(ChatRequest(message, props.provider, props.model, [])) == tags[0]
  {
  }

  /**
   * A request that names only its message goes to the Ollama adapter with
   * "llama3", and the model sees just the system prompt and that message.
   */
  lemma DefaultRequestGoesToOllama(message: string, hits: seq<Retrieval.Hit>)
    ensures var req := RequestWithDefaults(message);
      && req.history == [] && req.model.None?
      && LlmProvider.GetLlmProvider(ProviderName(req.provider)) == Ollama
      && Server.ClientCallFor(req, hits) == LlmProvider.CompletionsCall(
           "llama3", [Message(System, Server.SystemPrompt(hits)), Message(User, message)], true)
  {
    var req := RequestWithDefaults(message);
    assert Server.AssembleMessages(req, hits) == [Message(System, Server.SystemPrompt(hits)), Message(User, message)];
  }

  /**
   * A local turn answers from this turn's context: when the store's answer
   * formats to `hits` and the client streams `pieces` without failing for
   * the completions call whose system prompt is built on exactly those
   * hits, the reply is the streamed text and the sources are those hits'.
   */
  lemma OllamaTurnAnswersFromRetrievedHits(req: ChatRequest, store: Server.Store, keys: LlmProvider.ApiKeys,
                                           client: Server.Client, hits: seq<Retrieval.Hit>, pieces: seq<Option<string>>)
    requires req.provider == Ollama
    requires Server.Retrieve(store(Server.RetrievalQuery(req.message, Server.ContextResultCount))) == Ok(hits)
    requires client(LlmProvider.CompletionsCall(Server.ChooseModel(req),
      [Message(System, Server.SystemPrompt(hits))] + req.history + [Message(User, req.message)], true))
      == LlmProvider.Streamed(pieces, None)
    ensures Server.Chat(req, store, keys, client).Ok?
    ensures Server.Chat(req, store, keys, client).value.response == Concat(LlmProvider.TextOf(pieces))
    ensures Server.Chat(req, store, keys, client).value.sources == Server.Sources(hits)
  {
    var ms := Server.AssembleMessages(req, hits);
    assert ms == [Message(System, Server.SystemPrompt(hits))] + req.history + [Message(User, req.message)];
    assert Server.ClientCallFor(req, hits) == LlmProvider.CompletionsCall(Server.ChooseModel(req), ms, true);
    LlmProvider.StreamNeverRaises(Ollama, keys, pieces, None);
  }

  /**
   * A stored record without metadata makes the formatting loop raise, and
   * since retrieval runs outside the chat handler's `try`, the turn fails
   * with a bare 500 whatever the provider does.
   */
  lemma MissingMetadataFailsTheTurn(req: ChatRequest, doc: string, store: Server.Store, keys: LlmProvider.ApiKeys, client: Server.Client)
    requires store(Server.RetrievalQuery(req.message, Server.ContextResultCount)) == Ok(Retrieval.QueryResult([[doc]], [[None]], []))
    ensures Retrieval.FormatHits(Retrieval.QueryResult([[doc]], [[None]], [])) == Err(Retrieval.NoMetadataText)
    ensures Server.Chat(req, store, keys, client) == Err(Server.HttpError(500, None))
  {
    var results := Retrieval.QueryResult([[doc]], [[None]], []);
    assert Retrieval.ProblemAt(results, 0) == Some(Retrieval.NoMetadataText);
    assert Retrieval.FormatPrefix(results, 0) == Ok([]);
  }

  /** A slash-free name placed under a directory has itself as base name. */
  lemma BaseNameOfJoined(dir: string, name: string)
    requires '/' !in name
    ensures BaseName(dir + "/" + name) == name
  {
    var p := dir + "/" + name;
    var k := BaseStart(p);
    assert p[|dir|] == '/';
    assert k == |dir| + 1;
    assert p[k..] == name;
  }

  /**
   * For a plain file name, every stored chunk's source and document id equal
   * the file name the upload answer echoes.
   */
  lemma UploadedNameIsDocumentId(filename: string, embeddingModel: string, foreign: Ingest.Foreign)
    requires '/' !in filename
    requires Server.UploadDocument(filename, None, embeddingModel, foreign).Ok?
    ensures var path := Server.JoinPath(Server.UploadDir, filename);
      var ingested := Ingest.ProcessFile(path, embeddingModel, foreign).value;
      ingested.stored.Some? ==>
        forall m :: m in ingested.stored.value.metadatas ==>
          m.documentId == m.source == Server.UploadDocument(filename, None, embeddingModel, foreign).value.filename
  {
    var path := Server.JoinPath(Server.UploadDir, filename);
    assert !(|filename| > 0 && filename[0] == '/') by {
      if |filename| > 0 {
        assert filename[0] in filename;
      }
    }
    assert Server.UploadDir[|Server.UploadDir| - 1] == 's';
    assert path == Server.UploadDir + "/" + filename;
    BaseNameOfJoined(Server.UploadDir, filename);
    var ingested := Ingest.ProcessFile(path, embeddingModel, foreign).value;
    if ingested.stored.Some? {
      var ms := ingested.stored.value.metadatas;
      assert ms == Ingest.Metadatas(filename, ingested.stored.value.ids, embeddingModel, foreign.embeddingDim.value);
    }
  }

  /** The conversation scenario: a first question answered by the backend leaves exactly the two turns. */
  lemma FirstQuestionScenario(props: ChatInterface.Props)
    ensures var q := "What is the capital of France?";
      var a := "Paris is the capital of France.";
      var s1 := ChatInterface.Step(ChatInterface.Initial, ChatInterface.Typed(q)).state;
      var s2 := ChatInterface.Step(s1, ChatInterface.Submit(props));
      var s3 := ChatInterface.Step(s2.state, ChatInterface.Settled(ChatInterface.Replied(ChatResponse(a, []))));
      && s2.request == Some(ChatRequest(q, props.provider, props.model, []))
      && s3.state.history == [Message(User, q), Message(Assistant, a)]
      && !s3.state.pending
  {
    var q := "What is the capital of France?";
    var s1 := ChatInterface.Step(ChatInterface.Initial, ChatInterface.Typed(q)).state;
    assert s1.input == q;
    assert q[0] == 'W' && !IsSpace(q[0]);
  }

  /** The upload scenario: idle, then uploading on selection, then success with the answer's name and count. */
  lemma ReportUploadScenario()
    ensures var f := FileUpload.File("report.pdf");
      var s1 := FileUpload.Step(FileUpload.Initial, FileUpload.FilesChosen([f]));
      var s2 := FileUpload.Step(s1.state, FileUpload.UploadSucceeded(UploadResponse("report.pdf", 12, "Success")));
      && FileUpload.Initial.status == FileUpload.Idle
      && s1.upload == Some(f) && s1.state.status == FileUpload.Uploading
      && s2.state == FileUpload.UploadState(FileUpload.Success, "report.pdf", 12)
  {
  }
}

=== FILE: file_upload.dfy ===
/**
 * The upload widget: a status (idle, uploading, success, error) with the
 * cached file name and chunk count. Choosing a file moves to uploading at
 * once; the upload mutation's callbacks move to success or error. Nothing
 * leads back to idle.
 */
module FileUpload {
  import opened Types

  datatype Status = Idle | Uploading | Success | Error

  datatype UploadState = UploadState(status: Status, fileName: string, chunks: int)

  /** The widget before any file was chosen. */
  const Initial: UploadState := UploadState(Idle, "", 0)

  /** A file the browser hands over; only its name matters here. */
  datatype File = File(name: string)

  /** A state after the change handler ran, with the file it sent, if any. */
  datatype Changed = Changed(state: UploadState, upload: Option<File>)

  /**
   * The file input's change handler. An event without a file changes
   * nothing; otherwise the first file's name is shown, the status becomes
   * uploading before any answer, and that file is sent.
   */
  function HandleFileChange(st: UploadState, files: seq<File>): (out: Changed)
    ensures files == [] <==> out.upload == None
    ensures files == [] ==> out.state == st
    ensures files != [] ==>
      && out.upload == Some(files[0])
      && out.state.status == Uploading
      && out.state.fileName == files[0].name
      && out.state.chunks == st.chunks
  {
    if files == [] then Changed(st, None)
    else
      var file := files[0];
      Changed(st.(fileName := file.name, status := Uploading), Some(file))
  }

  /** Success callback: the response's file name and chunk count replace the cached ones. */
  function OnSuccess(st: UploadState, data: UploadResponse): (st': UploadState)
    ensures st'.status == Success
    ensures st'.fileName == data.filename && st'.chunks == data.chunks
  {
    UploadState(Success, data.filename, data.chunks)
  }

  /** Error callback: only the status changes. */
  function OnError(st: UploadState): (st': UploadState)
    ensures st'.status == Error
    ensures st'.fileName == st.fileName && st'.chunks == st.chunks
  {
    st.(status := Error)
  }

  /** The file input is disabled while an upload is running. */
  predicate InputDisabled(st: UploadState)
  {
    st.status == Uploading
  }

  datatype Event =
    | FilesChosen(files: seq<File>)
    | UploadSucceeded(data: UploadResponse)
    | UploadFailed

  /**
   * One event. A disabled input delivers no change events, and a callback
   * only fires for the upload in flight.
   */
  function Step(st: UploadState, ev: Event): (out: Changed)
    ensures out.upload.Some? ==> !InputDisabled(st) && InputDisabled(out.state)
    ensures out.state.status == Idle ==> out.state == st
  {
    match ev
    case FilesChosen(files) =>
      if InputDisabled(st) then Changed(st, None) else HandleFileChange(st, files)
    case UploadSucceeded(data) =>
      if st.status == Uploading then Changed(OnSuccess(st, data), None) else Changed(st, None)
    case UploadFailed =>
      if st.status == Uploading then Changed(OnError(st), None) else Changed(st, None)
  }

  function Run(st: UploadState, evs: seq<Event>): UploadState
    decreases |evs|
  {
    if evs == [] then st else Run(Step(st, evs[0]).state, evs[1..])
  }

  /** No event in the list hands over a file. */
  predicate NoFileChosen(evs: seq<Event>)
  {
    forall i :: 0 <= i < |evs| ==> (evs[i].FilesChosen? ==> evs[i].files == [])
  }

  /** Once the widget has left idle it never returns there. */
  lemma {:induction false} NeverBackToIdle(st: UploadState, evs: seq<Event>)
    requires st.status != Idle
    ensures Run(st, evs).status != Idle
    decreases |evs|
  {
    if evs != [] {
      NeverBackToIdle(Step(st, evs[0]).state, evs[1..]);
    }
  }

  /**
   * From the initial widget, the status is still idle exactly when no file
   * was ever handed over, and then the cached name and count are the
   * initial ones.
   */
  lemma {:induction false} IdleIffNoFileChosen(evs: seq<Event>)
    ensures Run(Initial, evs).status == Idle <==> NoFileChosen(evs)
    ensures Run(Initial, evs).status == Idle ==> Run(Initial, evs) == Initial
    decreases |evs|
  {
    if evs != [] {
      var next := Step(Initial, evs[0]).state;
      if next == Initial {
        IdleIffNoFileChosen(evs[1..]);
        if NoFileChosen(evs[1..]) {
          assert evs[0].FilesChosen? ==> evs[0].files == [];
          forall i | 0 <= i < |evs| && evs[i].FilesChosen?
            ensures evs[i].files == []
          {
            if i > 0 {
              assert evs[i] == evs[1..][i - 1];
            }
          }
        } else {
          var j :| 0 <= j < |evs[1..]| && evs[1..][j].FilesChosen? && evs[1..][j].files != [];
          assert evs[j + 1] == evs[1..][j];
        }
      } else {
        assert evs[0].FilesChosen? && evs[0].files != [];
        NeverBackToIdle(next, evs[1..]);
      }
    }
  }
}

=== FILE: ingest.dfy ===
/**
 * Ingestion of one uploaded file: conversion, splitting, embedding and the
 * store are foreign, so their outputs (or the exception each raises) are
 * inputs. What is modelled is the early return on an empty chunk list and
 * the construction of the chunk ids and the metadata records.
 */
module Ingest {
  import opened Types
  import opened Text

  const ChunkVersion: string := "v1.0"

  /** The metadata stored with each chunk. */
  datatype ChunkMetadata = ChunkMetadata(
    source: string,
    documentId: string,
    chunkId: string,
    chunkIndex: nat,
    chunkVersion: string,
    embeddingModel: string,
    embeddingDim: nat)

  /** What one call hands the store. */
  datatype Batch = Batch(documents: seq<string>, ids: seq<string>, metadatas: seq<ChunkMetadata>)

  /** The chunk count returned, and the batch stored, if any. */
  datatype Ingested = Ingested(count: nat, stored: Option<Batch>)

  /**
   * The foreign steps: the chunks the converter and splitter produce, the
   * embedding width the encoder reports, and whether the store's `add`
   * raised. Each `Err` is the text of the exception that step raised.
   */
  datatype Foreign = Foreign(
    chunks: Result<seq<string>, string>,
    embeddingDim: Result<nat, string>,
    stored: Option<string>)

  /** The id of chunk `i` of a file. */
  function ChunkId(baseName: string, i: nat): string
  {
    baseName + "_" + Decimal(i)
  }

  /** Equal ids name the same chunk: the decimal index after the underscore is read back. */
  lemma ChunkIdInjective(baseName: string, i: nat, j: nat)
    ensures ChunkId(baseName, i) == ChunkId(baseName, j) <==> i == j
  {
    if ChunkId(baseName, i) == ChunkId(baseName, j) {
      var p := baseName + "_";
      assert ChunkId(baseName, i)[|p|..] == Decimal(i);
      assert ChunkId(baseName, j)[|p|..] == Decimal(j);
      DecimalInjective(i, j);
    }
  }

  function ChunkIds(baseName: string, n: nat): (ids: seq<string>)
    ensures |ids| == n
    ensures forall i :: 0 <= i < n ==> ids[i] == ChunkId(baseName, i)
  {
    seq(n, i requires 0 <= i < n => ChunkId(baseName, i))
  }

  /** The ids of one call are pairwise distinct. */
  lemma ChunkIdsDistinct(baseName: string, n: nat)
    ensures forall i, j :: 0 <= i < j < n ==> ChunkIds(baseName, n)[i] != ChunkIds(baseName, n)[j]
  {
    forall i, j | 0 <= i < j < n
      ensures ChunkIds(baseName, n)[i] != ChunkIds(baseName, n)[j]
    {
      ChunkIdInjective(baseName, i, j);
    }
  }

  /** One record per id, pointing back at its index and id, with the file's base name as source and document id. */
  function Metadatas(baseName: string, ids: seq<string>, model: string, dim: nat): (ms: seq<ChunkMetadata>)
    ensures |ms| == |ids|
    ensures forall i :: 0 <= i < |ms| ==>
      && ms[i].chunkIndex == i
      && ms[i].chunkId == ids[i]
      && ms[i].source == baseName
      && ms[i].documentId == baseName
      && ms[i].chunkVersion == ChunkVersion
      && ms[i].embeddingModel == model
      && ms[i].embeddingDim == dim
  {
    seq(|ids|, i requires 0 <= i < |ids| =>
      ChunkMetadata(baseName, baseName, ids[i], i, ChunkVersion, model, dim))
  }

  /**
   * `process_file`: an exception from any foreign step is re-raised; an
   * empty chunk list returns 0 and stores nothing; otherwise every chunk is
   * stored with its id and metadata and the chunk count is returned.
   */
  function ProcessFile(filePath: string, embeddingModel: string, foreign: Foreign): (r: Result<Ingested, string>)
    ensures foreign.chunks.Err? ==> r == Err(foreign.chunks.error)
    ensures foreign.chunks == Ok([]) ==> r == Ok(Ingested(0, None))
    ensures r.Ok? && r.value.count > 0 ==>
      && foreign.chunks.Ok?
      && r.value.count == |foreign.chunks.value|
      && foreign.embeddingDim.Ok?
      && r.value.stored.Some?
      && r.value.stored.value.documents == foreign.chunks.value
      && r.value.stored.value.ids == ChunkIds(BaseName(filePath), r.value.count)
      && r.value.stored.value.metadatas ==
           Metadatas(BaseName(filePath), r.value.stored.value.ids, embeddingModel, foreign.embeddingDim.value)
    ensures r.Ok? <==>
      (foreign.chunks == Ok([]) || (foreign.chunks.Ok? && foreign.embeddingDim.Ok? && foreign.stored.None?))
    ensures r.Ok? ==> foreign.chunks.Ok? && r.value.count == |foreign.chunks.value|
    ensures r.Ok? ==> (r.value.stored.None? <==> r.value.count == 0)
  {
    if foreign.chunks.Err? then Err(foreign.chunks.error)
    else if foreign.chunks.value == [] then Ok(Ingested(0, None))
    else if foreign.embeddingDim.Err? then Err(foreign.embeddingDim.error)
    else if foreign.stored.Some? then Err(foreign.stored.value)
    else
      var chunks := foreign.chunks.value;
      var baseName := BaseName(filePath);
      var ids := ChunkIds(baseName, |chunks|);
      Ok(Ingested(|chunks|, Some(Batch(chunks, ids, Metadatas(baseName, ids, embeddingModel, foreign.embeddingDim.value)))))
  }

  /** A successful ingestion stores nothing or exactly one record per chunk, all with distinct ids. */
  lemma StoredBatchIsConsistent(filePath: string, embeddingModel: string, foreign: Foreign)
    requires ProcessFile(filePath, embeddingModel, foreign).Ok?
    ensures var r := ProcessFile(filePath, embeddingModel, foreign).value;
      && (r.count == 0 <==> r.stored.None?)
      && (r.stored.Some? ==>
        && |r.stored.value.documents| == |r.stored.value.ids| == |r.stored.value.metadatas| == r.count
        && forall i, j :: 0 <= i < j < r.count ==> r.stored.value.ids[i] != r.stored.value.ids[j])
  {
    var r := ProcessFile(filePath, embeddingModel, foreign).value;
    if r.stored.Some? {
      var base := BaseName(filePath);
      var b := r.stored.value;
      assert b.ids == ChunkIds(base, r.count);
      assert |b.metadatas| == |b.ids|;
      ChunkIdsDistinct(base, r.count);
    }
  }
}

=== FILE: llm_provider.dfy ===
/**
 * The language-model adapters: name-based dispatch with an Ollama fallback,
 * the per-provider reshaping of the message list, and the stream each
 * adapter yields. The client libraries are foreign: what they stream, and
 * whether they raise, are inputs. Every adapter turns a client exception
 * into one in-band error string instead of raising.
 */
module LlmProvider {
  import opened Types
  import opened Text

  /** `get_llm_provider`: the four known names select their adapter, anything else selects Ollama. */
  function GetLlmProvider(name: string): (p: Provider)
    ensures forall q: Provider :: name == ProviderName(q) ==> p == q
    ensures (forall q: Provider :: name != ProviderName(q)) ==> p == Ollama
  {
    if name == ProviderName(OpenAI) then OpenAI
    else if name == ProviderName(Gemini) then Gemini
    else if name == ProviderName(Anthropic) then Anthropic
    else Ollama
  }

  /** Dispatch inverts naming: a provider's own name selects it. */
  lemma DispatchInvertsName(p: Provider)
    ensures GetLlmProvider(ProviderName(p)) == p
  {
  }

  /** The configured API keys; an absent or empty key counts as not configured. */
  datatype ApiKeys = ApiKeys(openai: Option<string>, gemini: Option<string>, anthropic: Option<string>)

  predicate Configured(key: Option<string>)
  {
    key.Some? && key.value != ""
  }

  /** Whether the adapter may go on to build a client; Ollama needs no key. */
  predicate HasKey(p: Provider, keys: ApiKeys)
  {
    match p
    case Ollama => true
    case OpenAI => Configured(keys.openai)
    case Gemini => Configured(keys.gemini)
    case Anthropic => Configured(keys.anthropic)
  }

  /** The name an adapter uses in its error strings. */
  function Label(p: Provider): string
  {
    match p
    case Ollama => "Ollama"
    case OpenAI => "OpenAI"
    case Gemini => "Gemini"
    case Anthropic => "Anthropic"
  }

  function MissingKeyNotice(p: Provider): string
  {
    "Error: " + Label(p) + " API Key not configured."
  }

  function ConnectionNotice(p: Provider, reason: string): string
  {
    "Error connecting to " + Label(p) + ": " + reason
  }

  // ---------------------------------------------------------------------
  // Gemini reshaping

  /** A turn in Gemini's history format. */
  datatype GeminiTurn = GeminiTurn(role: string, parts: seq<string>)

  /** What the Gemini adapter derives: a history it builds and the single prompt it sends. */
  datatype GeminiInput = GeminiInput(history: seq<GeminiTurn>, prompt: string)

  /** The content of the last message with the given role, if any: the "last one wins" of both adapters' loops. */
  function LastContent(messages: seq<Message>, role: Role): Option<string>
    decreases |messages|
  {
    if messages == [] then None
    else if messages[|messages| - 1].role == role then Some(messages[|messages| - 1].content)
    else LastContent(messages[..|messages| - 1], role)
  }

  /** There is a content exactly when some message has the role, and it is that of the last such message. */
  lemma {:induction false} LastContentIsLast(messages: seq<Message>, role: Role)
    ensures LastContent(messages, role).Some? <==> exists i :: 0 <= i < |messages| && messages[i].role == role
    ensures LastContent(messages, role).Some? ==>
      exists i :: (0 <= i < |messages| && messages[i] == Message(role, LastContent(messages, role).value)
        && forall j :: i < j < |messages| ==> messages[j].role != role)
    decreases |messages|
  {
    if messages != [] {
      var n := |messages| - 1;
      if messages[n].role == role {
        assert messages[n] == Message(role, LastContent(messages, role).value);
      } else {
        var front := messages[..n];
        LastContentIsLast(front, role);
        assert forall i :: 0 <= i < n ==> front[i] == messages[i];
        var r := LastContent(front, role);
        assert LastContent(messages, role) == r;
        if r.Some? {
          var i :| 0 <= i < n && front[i] == Message(role, r.value)
            && forall j :: i < j < n ==> front[j].role != role;
          assert messages[i] == Message(role, r.value);
        }
      }
    }
  }

  /** The assistant turns, in order, each as a "model" turn with its content as the one part. */
  function ModelTurns(messages: seq<Message>): (r: seq<GeminiTurn>)
    ensures |r| <= |messages|
    ensures forall i :: 0 <= i < |r| ==> r[i].role == "model" && |r[i].parts| == 1
    decreases |messages|
  {
    if messages == [] then []
    else
      var m := messages[|messages| - 1];
      ModelTurns(messages[..|messages| - 1])
        + (if m.role != User && m.role != System then [GeminiTurn("model", [m.content])] else [])
  }

  /**
   * The Gemini adapter's conversion loop: system messages are skipped, a
   * user message becomes the prompt (the last one wins, "" if none), any
   * other message is added to the history as a "model" turn.
   */
  method ConvertForGemini(messages: seq<Message>) returns (g: GeminiInput)
    ensures g.prompt == (match LastContent(messages, User) case Some(c) => c case None => "")
    ensures g.history == ModelTurns(messages)
  {
    var history: seq<GeminiTurn> := [];
    var lastUser: string := "";
    var i := 0;
    while i < |messages|
      invariant 0 <= i <= |messages|
      invariant history == ModelTurns(messages[..i])
      invariant lastUser == (match LastContent(messages[..i], User) case Some(c) => c case None => "")
    {
      var msg := messages[i];
      assert messages[..i + 1][..i] == messages[..i];
      if msg.role != System {
        var role := if msg.role == User then "user" else "model";
        if role == "user" {
          lastUser := msg.content;
        } else {
          history := history + [GeminiTurn(role, [msg.content])];
        }
      }
      i := i + 1;
    }
    assert messages[..i] == messages;
    g := GeminiInput(history, lastUser);
  }

  // ---------------------------------------------------------------------
  // Anthropic reshaping

  const AnthropicMaxTokens: nat := 1024

  /** What the Anthropic adapter derives: the non-system messages and the last system text. */
  datatype AnthropicInput = AnthropicInput(messages: seq<Message>, system: Option<string>)

  /** The messages that are not system messages, in their original order. */
  function WithoutSystem(messages: seq<Message>): seq<Message>
    decreases |messages|
  {
    if messages == [] then []
    else
      var m := messages[|messages| - 1];
      WithoutSystem(messages[..|messages| - 1]) + (if m.role != System then [m] else [])
  }

  /** The filter keeps exactly the non-system messages and never lengthens the list. */
  lemma {:induction false} WithoutSystemMembers(messages: seq<Message>)
    ensures |WithoutSystem(messages)| <= |messages|
    ensures forall m :: m in WithoutSystem(messages) ==> m in messages && m.role != System
    ensures forall m :: m in messages && m.role != System ==> m in WithoutSystem(messages)
    decreases |messages|
  {
    if messages != [] {
      var m := messages[|messages| - 1];
      var front := messages[..|messages| - 1];
      WithoutSystemMembers(front);
      assert messages == front + [m];
      assert forall x :: x in messages ==> x in front || x == m;
    }
  }

  /** Filtering distributes over concatenation. */
  lemma {:induction false} WithoutSystemAppend(a: seq<Message>, b: seq<Message>)
    ensures WithoutSystem(a + b) == WithoutSystem(a) + WithoutSystem(b)
    decreases |b|
  {
    if b == [] {
      assert a + b == a;
    } else {
      var b', last := b[..|b| - 1], b[|b| - 1];
      assert b == b' + [last];
      assert a + b == (a + b') + [last];
      WithoutSystemAppend(a, b');
      var kept := if last.role != System then [last] else [];
      calc {
        WithoutSystem(a + b);
        WithoutSystem(a + b') + kept;
        WithoutSystem(a) + WithoutSystem(b') + kept;
        WithoutSystem(a) + WithoutSystem(b);
      }
    }
  }

  /** The Anthropic adapter's split loop: system messages set the system text (the last one wins), the rest are kept. */
  method ConvertForAnthropic(messages: seq<Message>) returns (a: AnthropicInput)
    ensures a.messages == WithoutSystem(messages)
    ensures a.system == LastContent(messages, System)
  {
    var system: Option<string> := None;
    var filtered: seq<Message> := [];
    var i := 0;
    while i < |messages|
      invariant 0 <= i <= |messages|
      invariant filtered == WithoutSystem(messages[..i])
      invariant system == LastContent(messages[..i], System)
    {
      assert messages[..i + 1][..i] == messages[..i];
      if messages[i].role == System {
        system := Some(messages[i].content);
      } else {
        filtered := filtered + [messages[i]];
      }
      i := i + 1;
    }
    assert messages[..i] == messages;
    a := AnthropicInput(filtered, system);
  }

  /** The `system` argument is passed only when the system text is non-empty. */
  function SystemArgument(system: Option<string>): (r: Option<string>)
    ensures r.Some? <==> system.Some? && system.value != ""
    ensures r.Some? ==> r == system
  {
    if system.Some? && system.value != "" then system else None
  }

  // ---------------------------------------------------------------------
  // Streams

  /**
   * What the adapter hands the foreign client. `stream` is the streaming
   * flag every adapter passes: `stream=True` to `chat.completions.create`
   * and `generate_content`, and a `"stream": True` entry in the keyword
   * arguments of `messages.stream`.
   */
  datatype ClientCall =
    | CompletionsCall(model: string, messages: seq<Message>, stream: bool)
    | GeminiCall(model: string, prompt: string, stream: bool)
    | AnthropicCall(model: string, messages: seq<Message>, system: Option<string>, maxTokens: nat, stream: bool)

  /** The call each adapter makes for a message list and model. */
  function CallFor(p: Provider, messages: seq<Message>, model: string): (call: ClientCall)
    ensures call.model == model
    ensures call.stream
    ensures call.CompletionsCall? <==> p == Ollama || p == OpenAI
    ensures call.CompletionsCall? ==> call.messages == messages
    ensures call.GeminiCall? <==> p == Gemini
    ensures call.GeminiCall? ==> call.prompt == "" || Message(User, call.prompt) in messages
    ensures call.GeminiCall? ==>
      call.prompt == (if LastContent(messages, User).Some? then LastContent(messages, User).value else "")
    ensures call.AnthropicCall? <==> p == Anthropic
    ensures call.AnthropicCall? ==>
      && call.maxTokens == AnthropicMaxTokens
      && (forall m :: m in call.messages ==> m in messages && m.role != System)
      && (forall m :: m in messages && m.role != System ==> m in call.messages)
      && (call.system.Some? ==> call.system.value != "" && Message(System, call.system.value) in messages)
      && call.messages == WithoutSystem(messages)
      && call.system == SystemArgument(LastContent(messages, System))
  {
    LastContentIsLast(messages, User);
    LastContentIsLast(messages, System);
    WithoutSystemMembers(messages);
    match p
    case Ollama => CompletionsCall(model, messages, true)
    case OpenAI => CompletionsCall(model, messages, true)
    case Gemini =>
      GeminiCall(model, match LastContent(messages, User) case Some(c) => c case None => "", true)
    case Anthropic =>
      AnthropicCall(model, WithoutSystem(messages),
        SystemArgument(LastContent(messages, System)), AnthropicMaxTokens, true)
  }

  /**
   * How the foreign client behaved: it raised while being set up (outside
   * the adapter's `try`), or it streamed pieces (a piece without text is
   * `None`) and then possibly raised.
   */
  datatype ClientRun =
    | SetupRaised(reason: string)
    | Streamed(pieces: seq<Option<string>>, raised: Option<string>)

  /**
   * The text pieces an adapter passes on: Ollama, OpenAI and Anthropic pass
   * every piece that has text; Gemini also drops empty text.
   */
  function PassedOn(p: Provider, pieces: seq<Option<string>>): (r: seq<string>)
    ensures |r| <= |pieces|
    ensures forall i :: 0 <= i < |r| ==> Some(r[i]) in pieces
    ensures p == Gemini ==> forall i :: 0 <= i < |r| ==> r[i] != ""
    decreases |pieces|
  {
    if pieces == [] then []
    else
      var front := PassedOn(p, pieces[..|pieces| - 1]);
      var last := pieces[|pieces| - 1];
      assert forall x :: x in pieces[..|pieces| - 1] ==> x in pieces;
      front + (if last.Some? && !(p == Gemini && last.value == "") then [last.value] else [])
  }

  /** The text a piece carries; a piece without text carries none. */
  function TextOf(pieces: seq<Option<string>>): seq<string>
    decreases |pieces|
  {
    if pieces == [] then []
    else TextOf(pieces[..|pieces| - 1]) + [match pieces[|pieces| - 1] case Some(t) => t case None => ""]
  }

  lemma ConcatSingle(s: string)
    ensures Concat([s]) == s
  {
    assert [s][..0] == [];
  }

  /** Dropping pieces without text never loses text: the passed-on stream glues to the whole streamed text. */
  lemma {:induction false} PassedOnKeepsText(p: Provider, pieces: seq<Option<string>>)
    ensures Concat(PassedOn(p, pieces)) == Concat(TextOf(pieces))
    decreases |pieces|
  {
    if pieces != [] {
      var front := pieces[..|pieces| - 1];
      var last := pieces[|pieces| - 1];
      var kept := if last.Some? && !(p == Gemini && last.value == "") then [last.value] else [];
      var t := match last case Some(v) => v case None => "";
      PassedOnKeepsText(p, front);
      assert PassedOn(p, pieces) == PassedOn(p, front) + kept;
      ConcatAppend(PassedOn(p, front), kept);
      assert TextOf(pieces) == TextOf(front) + [t];
      ConcatAppend(TextOf(front), [t]);
      ConcatSingle(t);
      if kept != [] {
        ConcatSingle(last.value);
      }
      assert Concat(kept) == t;
    }
  }

  /**
   * What `generate_stream` yields, or the exception it lets escape. A
   * missing key yields the one notice and stops before any client exists; a
   * client that raises mid-stream ends the stream with one connection notice.
   */
  function GenerateStream(p: Provider, keys: ApiKeys, run: ClientRun): (r: Result<seq<string>, string>)
    ensures !HasKey(p, keys) ==> r == Ok([MissingKeyNotice(p)])
    ensures HasKey(p, keys) && run.SetupRaised? ==> r == Err(run.reason)
    ensures HasKey(p, keys) && run.Streamed? ==>
      && r.Ok?
      && |r.value| == |PassedOn(p, run.pieces)| + (if run.raised.Some? then 1 else 0)
      && r.value[..|PassedOn(p, run.pieces)|] == PassedOn(p, run.pieces)
      && (run.raised.Some? ==> r.value[|r.value| - 1] == ConnectionNotice(p, run.raised.value))
  {
    if !HasKey(p, keys) then Ok([MissingKeyNotice(p)])
    else
      match run
      case SetupRaised(reason) => Err(reason)
      case Streamed(pieces, raised) =>
        Ok(PassedOn(p, pieces) + match raised case Some(e) => [ConnectionNotice(p, e)] case None => [])
  }

  /** Once a client is built, no adapter raises: errors arrive in-band. */
  lemma StreamNeverRaises(p: Provider, keys: ApiKeys, pieces: seq<Option<string>>, raised: Option<string>)
    ensures GenerateStream(p, keys, Streamed(pieces, raised)).Ok?
    ensures raised.None? && HasKey(p, keys) ==>
      Concat(GenerateStream(p, keys, Streamed(pieces, raised)).value) == Concat(TextOf(pieces))
  {
    if raised.None? && HasKey(p, keys) {
      assert GenerateStream(p, keys, Streamed(pieces, raised)).value == PassedOn(p, pieces) + [];
      assert PassedOn(p, pieces) + [] == PassedOn(p, pieces);
      PassedOnKeepsText(p, pieces);
    }
  }
}

=== FILE: retrieval.dfy ===
/**
 * Formatting of a vector-store query result into the hits the chat
 * endpoint uses. The store and the embedding model are foreign: the raw
 * result is an input. Each field of the raw result holds one list per query
 * text; only the first is read.
 */
module Retrieval {
  import opened Types

  /** A distance as the store reports it: an opaque floating-point value, never inspected. */
  datatype Distance = Distance(token: nat)

  /** A hit's score: the reported distance, or the literal 0 when the store reported none. */
  datatype Score = Zero | Measured(distance: Distance)

  type Metadata = map<string, string>

  /**
   * The raw result; an empty outer list stands for a missing or empty field,
   * and a metadata entry is `None` when the store holds none for that record.
   */
  datatype QueryResult = QueryResult(
    documents: seq<seq<string>>,
    metadatas: seq<seq<Option<Metadata>>>,
    distances: seq<seq<Distance>>)

  datatype Hit = Hit(content: string, source: string, score: Score)

  /** The text of the exception an out-of-range index raises. */
  const IndexErrorText: string := "list index out of range"

  /** The text of the exception `.get` on a missing metadata entry raises. */
  const NoMetadataText: string := "'NoneType' object has no attribute 'get'"

  /** The documents of the first query, none if the field is empty. */
  function FirstDocuments(results: QueryResult): seq<string>
  {
    if results.documents == [] then [] else results.documents[0]
  }

  /**
   * What the loop body raises at index i, in the order it reads: the
   * metadata index, then `.get` on that entry, then the distance index.
   */
  function ProblemAt(results: QueryResult, i: nat): Option<string>
  {
    if results.metadatas != [] && i >= |results.metadatas[0]| then Some(IndexErrorText)
    else if results.metadatas != [] && results.metadatas[0][i].None? then Some(NoMetadataText)
    else if results.distances != [] && i >= |results.distances[0]| then Some(IndexErrorText)
    else None
  }

  /** The hit for the document at index i, where the loop body raises nothing. */
  function HitAt(results: QueryResult, i: nat): (h: Hit)
    requires i < |FirstDocuments(results)|
    requires ProblemAt(results, i).None?
    ensures h.content == FirstDocuments(results)[i]
    ensures results.metadatas != [] && "source" in results.metadatas[0][i].value ==>
      h.source == results.metadatas[0][i].value["source"]
    ensures results.metadatas == [] || "source" !in results.metadatas[0][i].value ==> h.source == "Unknown"
    ensures results.distances == [] <==> h.score == Zero
    ensures results.distances != [] ==> h.score == Measured(results.distances[0][i])
  {
    var meta: Metadata := if results.metadatas != [] then results.metadatas[0][i].value else map[];
    Hit(
      FirstDocuments(results)[i],
      if "source" in meta then meta["source"] else "Unknown",
      if results.distances != [] then Measured(results.distances[0][i]) else Zero)
  }

  /** The first n documents formatted, or the exception of the first index that raises. */
  function FormatPrefix(results: QueryResult, n: nat): (r: Result<seq<Hit>, string>)
    requires n <= |FirstDocuments(results)|
    ensures r.Ok? <==> forall i :: 0 <= i < n ==> ProblemAt(results, i).None?
    ensures r.Ok? ==> |r.value| == n && forall i :: 0 <= i < n ==> r.value[i] == HitAt(results, i)
    ensures r.Err? ==> exists i :: (0 <= i < n && ProblemAt(results, i) == Some(r.error)
      && forall j :: 0 <= j < i ==> ProblemAt(results, j).None?)
  {
    if n == 0 then Ok([])
    else
      match FormatPrefix(results, n - 1)
      case Err(e) => Err(e)
      case Ok(hits) =>
        match ProblemAt(results, n - 1)
        case Some(e) => Err(e)
        case None => Ok(hits + [HitAt(results, n - 1)])
  }

  /** Once an index raised, every longer prefix ends with that same exception. */
  lemma {:induction false} FirstProblemIsFinal(results: QueryResult, i: nat, n: nat)
    requires i < n <= |FirstDocuments(results)|
    requires FormatPrefix(results, i).Ok? && ProblemAt(results, i).Some?
    ensures FormatPrefix(results, n) == Err(ProblemAt(results, i).value)
    decreases n
  {
    if n > i + 1 {
      FirstProblemIsFinal(results, i, n - 1);
    }
  }

  /**
   * The formatted hits: one per document of the first query, in order, or
   * the exception the first failing index raises.
   */
  function FormatHits(results: QueryResult): (r: Result<seq<Hit>, string>)
    ensures r.Ok? <==> forall i :: 0 <= i < |FirstDocuments(results)| ==> ProblemAt(results, i).None?
    ensures r.Ok? ==> |r.value| == |FirstDocuments(results)|
    ensures r.Ok? ==> forall i :: 0 <= i < |r.value| ==> r.value[i] == HitAt(results, i)
    ensures results.documents == [] ==> r == Ok([])
  {
    FormatPrefix(results, |FirstDocuments(results)|)
  }

  /**
   * The formatting loop of `query_documents`: one hit per document of the
   * first query, in order; it stops at the first document whose metadata
   * or distance is missing, with the exception that raises.
   */
  method FormatResults(results: QueryResult) returns (r: Result<seq<Hit>, string>)
    ensures r == FormatHits(results)
  {
    var formatted: seq<Hit> := [];
    if results.documents != [] {
      var docs := results.documents[0];
      var i := 0;
      while i < |docs|
        invariant 0 <= i <= |docs|
        invariant docs == FirstDocuments(results)
        invariant FormatPrefix(results, i) == Ok(formatted)
      {
        var meta: Metadata := map[];
        if results.metadatas != [] {
          if i >= |results.metadatas[0]| {
            FirstProblemIsFinal(results, i, |docs|);
            return Err(IndexErrorText);
          }
          if results.metadatas[0][i].None? {
            FirstProblemIsFinal(results, i, |docs|);
            return Err(NoMetadataText);
          }
          meta := results.metadatas[0][i].value;
        }
        var score := Zero;
        if results.distances != [] {
          if i >= |results.distances[0]| {
            FirstProblemIsFinal(results, i, |docs|);
            return Err(IndexErrorText);
          }
          score := Measured(results.distances[0][i]);
        }
        var source := if "source" in meta then meta["source"] else "Unknown";
        formatted := formatted + [Hit(docs[i], source, score)];
        i := i + 1;
      }
    }
    r := Ok(formatted);
  }
}

=== FILE: server.dfy ===
/**
 * The HTTP endpoints of the backend: `/upload`, `/chat` and `/models`.
 * Routing, the file write and the HTTP client are left abstract: their
 * outcomes are inputs. What is modelled is the prompt and message
 * assembly, the model default, the accumulation of the answer stream, the
 * source snippets, the model-list parsing with its fallback, and the
 * response and error shapes.
 */
module Server {
  import opened Types
  import opened Text
  import Retrieval
  import Ingest
  import LlmProvider

  /** An HTTP error answer; `detail` is absent for an exception no handler caught. */
  datatype HttpError = HttpError(status: int, detail: Option<string>)

  // ---------------------------------------------------------------------
  // /upload

  const UploadDir: string := "./uploaded_docs"

  /** POSIX `os.path.join(dir, name)`: an absolute name replaces the directory. */
  function JoinPath(dir: string, name: string): (path: string)
    ensures |name| > 0 && name[0] == '/' ==> path == name
    ensures !(|name| > 0 && name[0] == '/') ==>
      && |dir| + |name| <= |path| <= |dir| + 1 + |name|
      && path[..|dir|] == dir
      && path[|path| - |name|..] == name
      && (dir != [] ==> path[|path| - |name| - 1] == '/')
  {
    if |name| > 0 && name[0] == '/' then name
    else if |dir| == 0 || dir[|dir| - 1] == '/' then dir + name
    else dir + "/" + name
  }

  /**
   * `upload_document`: the file is written under the upload directory and
   * ingested; the answer echoes the uploaded name and the chunk count. Any
   * exception, from the write or from ingestion, becomes a 500 carrying
   * its text.
   */
  function UploadDocument(filename: string, writeError: Option<string>, embeddingModel: string, foreign: Ingest.Foreign)
    : (r: Result<UploadResponse, HttpError>)
    ensures writeError.Some? ==> r == Err(HttpError(500, writeError))
    ensures r.Ok? <==> writeError.None? && Ingest.ProcessFile(JoinPath(UploadDir, filename), embeddingModel, foreign).Ok?
    ensures r.Ok? ==>
      && r.value.filename == filename
      && r.value.status == "Success"
      && r.value.chunks == Ingest.ProcessFile(JoinPath(UploadDir, filename), embeddingModel, foreign).value.count
    ensures r.Err? ==> r.error.status == 500 && r.error.detail.Some?
  {
    if writeError.Some? then Err(HttpError(500, writeError))
    else
      match Ingest.ProcessFile(JoinPath(UploadDir, filename), embeddingModel, foreign)
      case Err(e) => Err(HttpError(500, Some(e)))
      case Ok(ingested) => Ok(UploadResponse(filename, ingested.count, "Success"))
  }

  // ---------------------------------------------------------------------
  // /chat

  /** The number of hits the chat endpoint asks retrieval for. */
  const ContextResultCount: nat := 3

  /** A call of `query_documents`: the text to embed and the number of hits asked for. */
  datatype RetrievalQuery = RetrievalQuery(text: string, count: nat)

  /**
   * The vector store as the chat endpoint sees it: for each query, the
   * store's raw answer or the text of the exception embedding or querying
   * raised.
   */
  type Store = RetrievalQuery -> Result<Retrieval.QueryResult, string>

  const Instructions: string :=
    "You are a helpful assistant. Use the following context to answer the user's question. "
    + "If the answer is not in the context, say you don't know."

  /** One context entry: the hit's source, then its content. */
  function ContextEntry(h: Retrieval.Hit): string
  {
    "Source: " + h.source + "\nContent: " + h.content
  }

  /** The entries of all hits, in order, separated by blank lines. */
  function ContextText(hits: seq<Retrieval.Hit>): string
  {
    Join("\n\n", Entries(hits))
  }

  /** There is context text exactly when there are hits: every entry is non-empty. */
  lemma ContextTextEmptyIffNoHits(hits: seq<Retrieval.Hit>)
    ensures ContextText(hits) == [] <==> hits == []
  {
    var parts := Entries(hits);
    if hits != [] {
      TotalLengthZeroIffAllEmpty(parts);
      assert parts[0] != [];
    }
  }

  /** The entries of one hit or of several, as Join lays them out. */
  function Entries(hits: seq<Retrieval.Hit>): (parts: seq<string>)
    ensures |parts| == |hits|
    ensures forall i :: 0 <= i < |hits| ==> parts[i] == ContextEntry(hits[i])
  {
    seq(|hits|, i requires 0 <= i < |hits| => ContextEntry(hits[i]))
  }

  /** One more hit adds a blank line and then its entry at the end. */
  lemma ContextTextSnoc(hits: seq<Retrieval.Hit>, h: Retrieval.Hit)
    requires hits != []
    ensures ContextText(hits + [h]) == ContextText(hits) + "\n\n" + ContextEntry(h)
  {
    assert Entries(hits + [h]) == Entries(hits) + [ContextEntry(h)];
    JoinSnoc("\n\n", Entries(hits), ContextEntry(h));
  }

  /** The first hit's entry opens the context text, followed by a blank line and the rest. */
  lemma ContextTextCons(h: Retrieval.Hit, hits: seq<Retrieval.Hit>)
    requires hits != []
    ensures ContextText([h] + hits) == ContextEntry(h) + "\n\n" + ContextText(hits)
  {
    assert Entries([h] + hits) == [ContextEntry(h)] + Entries(hits);
    JoinCons("\n\n", ContextEntry(h), Entries(hits));
  }

  /** A single hit's context text is its entry alone. */
  lemma ContextTextSingle(h: Retrieval.Hit)
    ensures ContextText([h]) == ContextEntry(h)
  {
    assert Entries([h]) == [ContextEntry(h)];
    JoinSingle("\n\n", ContextEntry(h));
  }

  const ContextHeader: string := "\n\nContext:\n"

  function SystemPrompt(hits: seq<Retrieval.Hit>): string
  {
    Instructions + ContextHeader + ContextText(hits)
  }

  /** The system prompt is the fixed instructions, the context header, and then exactly the context text. */
  lemma SystemPromptShape(hits: seq<Retrieval.Hit>)
    ensures |SystemPrompt(hits)| == |Instructions| + |ContextHeader| + |ContextText(hits)|
    ensures SystemPrompt(hits)[..|Instructions| + |ContextHeader|] == Instructions + ContextHeader
    ensures SystemPrompt(hits)[|Instructions| + |ContextHeader|..] == ContextText(hits)
    ensures SystemPrompt(hits) != []
  {
  }

  /** The model's messages: the system prompt, then the history in order, then the new user message. */
  function AssembleMessages(req: ChatRequest, hits: seq<Retrieval.Hit>): (ms: seq<Message>)
    ensures |ms| == |req.history| + 2
    ensures ms[0] == Message(System, SystemPrompt(hits))
    ensures ms[1..|ms| - 1] == req.history
    ensures ms[|ms| - 1] == Message(User, req.message)
  {
    [Message(System, SystemPrompt(hits))] + req.history + [Message(User, req.message)]
  }

  /** The request's model when it is non-empty; otherwise "llama3" for Ollama and "gpt-4o" for every other provider. */
  function ChooseModel(req: ChatRequest): (model: string)
    ensures req.model.Some? && req.model.value != "" ==> model == req.model.value
    ensures (req.model.None? || req.model.value == "") && req.provider == Ollama ==> model == "llama3"
    ensures (req.model.None? || req.model.value == "") && req.provider != Ollama ==> model == "gpt-4o"
    ensures model != ""
  {
    if req.model.Some? && req.model.value != "" then req.model.value
    else if req.provider == Ollama then "llama3" else "gpt-4o"
  }

  /** The accumulation loop: the answer is the streamed pieces glued together in order. */
  method CollectResponse(stream: seq<string>) returns (content: string)
    ensures content == Concat(stream)
    ensures |content| == TotalLength(stream)
  {
    content := "";
    var i := 0;
    while i < |stream|
      invariant 0 <= i <= |stream|
      invariant content == Concat(stream[..i])
    {
      assert stream[..i + 1][..i] == stream[..i];
      content := content + stream[i];
      i := i + 1;
    }
    assert stream[..i] == stream;
  }

  const SnippetLength: nat := 200

  /** One source per hit, in order: its source, no page, the first 200 characters of its content. */
  function Sources(hits: seq<Retrieval.Hit>): (srcs: seq<DocumentSource>)
    ensures |srcs| == |hits|
    ensures forall i :: 0 <= i < |hits| ==>
      && srcs[i].source == hits[i].source
      && srcs[i].page == None
      && |srcs[i].contentSnippet| == (if |hits[i].content| <= SnippetLength then |hits[i].content| else SnippetLength)
      && srcs[i].contentSnippet == hits[i].content[..|srcs[i].contentSnippet|]
  {
    seq(|hits|, i requires 0 <= i < |hits| =>
      DocumentSource(hits[i].source, None, Take(hits[i].content, SnippetLength)))
  }

  /**
   * What retrieval gives the chat endpoint: the formatted hits, or the text
   * of the exception the query embedding, the store query or the formatting
   * loop raised. `queried` is the store's raw answer or the exception that
   * the embedding or the store raised.
   */
  function Retrieve(queried: Result<Retrieval.QueryResult, string>): (r: Result<seq<Retrieval.Hit>, string>)
    ensures queried.Err? ==> r == Err(queried.error)
    ensures queried.Ok? ==> r == Retrieval.FormatHits(queried.value)
  {
    match queried
    case Err(e) => Err(e)
    case Ok(results) => Retrieval.FormatHits(results)
  }

  /**
   * The foreign LLM client as the chat endpoint sees it: for each call an
   * adapter makes, how the client behaves.
   */
  type Client = LlmProvider.ClientCall -> LlmProvider.ClientRun

  /**
   * `chat`: retrieval is asked for three hits for the user's message; it
   * runs outside the handler's `try`, so any exception it raises escapes as
   * a bare 500. The chosen adapter then makes its client call from the
   * prompt built on those hits and the chosen model; an exception from the
   * adapter becomes a 500 carrying its text; otherwise the answer is the
   * glued stream with one source per hit.
   */
  function Chat(req: ChatRequest, store: Store, keys: LlmProvider.ApiKeys, client: Client)
    : (r: Result<ChatResponse, HttpError>)
    ensures Retrieve(store(RetrievalQuery(req.message, ContextResultCount))).Err? ==> r == Err(HttpError(500, None))
    ensures Retrieve(store(RetrievalQuery(req.message, ContextResultCount))).Ok? ==>
      var hits := Retrieve(store(RetrievalQuery(req.message, ContextResultCount))).value;
      var answer := LlmProvider.GenerateStream(req.provider, keys, client(ClientCallFor(req, hits)));
      && (r.Ok? <==> answer.Ok?)
      && (r.Ok? ==> r.value.sources == Sources(hits) && r.value.response == Concat(answer.value))
      && (r.Err? ==> r.error == HttpError(500, Some(answer.error)))
  {
    match Retrieve(store(RetrievalQuery(req.message, ContextResultCount)))
    case Err(_) => Err(HttpError(500, None))
    case Ok(hits) =>
      var provider := LlmProvider.GetLlmProvider(ProviderName(req.provider));
      LlmProvider.DispatchInvertsName(req.provider);
      match LlmProvider.GenerateStream(provider, keys, client(ClientCallFor(req, hits)))
      case Err(e) => Err(HttpError(500, Some(e)))
      case Ok(stream) => Ok(ChatResponse(Concat(stream), Sources(hits)))
  }

  /**
   * The turn consults the store only for the user's message with a count of
   * three: two stores that agree on that one query give the same answer.
   */
  lemma ChatQueriesOnlyTheMessage(req: ChatRequest, s1: Store, s2: Store, keys: LlmProvider.ApiKeys, client: Client)
    requires s1(RetrievalQuery(req.message, ContextResultCount)) == s2(RetrievalQuery(req.message, ContextResultCount))
    ensures Chat(req, s1, keys, client) == Chat(req, s2, keys, client)
  {
  }

  /**
   * The model is asked exactly one thing per turn: the call built from the
   * hits this turn retrieved, the request's history and message, and the
   * chosen model. Two clients that agree on that call give the same answer.
   */
  lemma ChatAsksOnlyTheGroundedCall(req: ChatRequest, store: Store, keys: LlmProvider.ApiKeys, c1: Client, c2: Client)
    requires Retrieve(store(RetrievalQuery(req.message, ContextResultCount))).Ok?
    requires var hits := Retrieve(store(RetrievalQuery(req.message, ContextResultCount))).value;
      c1(ClientCallFor(req, hits)) == c2(ClientCallFor(req, hits))
    ensures Chat(req, store, keys, c1) == Chat(req, store, keys, c2)
  {
  }

  /** The call the chosen adapter makes for a request and its hits. */
  function ClientCallFor(req: ChatRequest, hits: seq<Retrieval.Hit>): (call: LlmProvider.ClientCall)
    ensures call.model == ChooseModel(req)
    ensures req.provider == Ollama || req.provider == OpenAI ==>
      call == LlmProvider.CompletionsCall(ChooseModel(req), AssembleMessages(req, hits), true)
    ensures req.provider == Gemini <==> call.GeminiCall?
    ensures req.provider == Anthropic <==> call.AnthropicCall?
  {
    LlmProvider.DispatchInvertsName(req.provider);
    LlmProvider.CallFor(
      LlmProvider.GetLlmProvider(ProviderName(req.provider)),
      AssembleMessages(req, hits),
      ChooseModel(req))
  }

  // ---------------------------------------------------------------------
  // /models

  /** One entry of Ollama's tag list; `name` is absent when the entry has no such key. */
  datatype TagEntry = TagEntry(name: Option<string>)

  /** A decoded JSON body; `models` is absent when the key is. */
  datatype TagsBody = TagsBody(models: Option<seq<TagEntry>>)

  /** How the tags request went: it raised, or answered with a status and a body that may not decode to an object. */
  datatype TagsOutcome =
    | TagsRaised(reason: string)
    | TagsAnswered(status: int, body: Option<TagsBody>)

  const FallbackModels: seq<string> := ["llama3"]

  predicate AllNamed(entries: seq<TagEntry>)
  {
    forall i :: 0 <= i < |entries| ==> entries[i].name.Some?
  }

  function Names(entries: seq<TagEntry>): (names: seq<string>)
    requires AllNamed(entries)
    ensures |names| == |entries|
    ensures forall i :: 0 <= i < |entries| ==> Some(names[i]) == entries[i].name
  {
    seq(|entries|, i requires 0 <= i < |entries| => entries[i].name.value)
  }

  /** Ollama answered 200 with a body that decodes to a JSON object. */
  predicate AnsweredOk(outcome: TagsOutcome)
  {
    outcome.TagsAnswered? && outcome.status == 200 && outcome.body.Some?
  }

  /**
   * `get_models`: on a 200 answer with an object body, the entries' names
   * in order, or none when the "models" key is missing; every other
   * outcome, an entry without a name included, falls back to ["llama3"].
   */
  function GetModels(outcome: TagsOutcome): (models: seq<string>)
    ensures !AnsweredOk(outcome) ==> models == FallbackModels
    ensures AnsweredOk(outcome) && outcome.body.value.models.None? ==> models == []
    ensures AnsweredOk(outcome) && outcome.body.value.models.Some? ==>
      (if AllNamed(outcome.body.value.models.value)
       then models == Names(outcome.body.value.models.value)
       else models == FallbackModels)
  {
    match outcome
    case TagsRaised(_) => FallbackModels
    case TagsAnswered(status, body) =>
      if status != 200 || body.None? then FallbackModels
      else
        var entries := if body.value.models.Some? then body.value.models.value else [];
        if AllNamed(entries) then Names(entries) else FallbackModels
  }

  /** The list is empty only when Ollama answered 200 with no models; any failure still offers "llama3". */
  lemma ModelListEmptyOnlyWhenOllamaHasNone(outcome: TagsOutcome)
    ensures GetModels(outcome) == [] <==>
      AnsweredOk(outcome) && (outcome.body.value.models.None? || outcome.body.value.models.value == [])
  {
  }
}

=== FILE: text.dfy ===
/**
 * String operations the client and the backend rely on: JavaScript's `trim`,
 * decimal rendering of counts, Python's `str.join`, prefix slicing,
 * concatenation of a stream of pieces, and `os.path.basename`.
 */
module Text {

  /** The characters JavaScript's `String.prototype.trim` removes: WhiteSpace and LineTerminator. */
  predicate IsSpace(c: char)
  {
    var n := c as int;
    n == 0x09 || n == 0x0A || n == 0x0B || n == 0x0C || n == 0x0D || n == 0x20
    || n == 0xA0 || n == 0x1680 || (0x2000 <= n <= 0x200A) || n == 0x2028
    || n == 0x2029 || n == 0x202F || n == 0x205F || n == 0x3000 || n == 0xFEFF
  }

  /** A text with nothing but white space, the empty text included. */
  predicate IsBlank(s: string)
  {
    forall i :: 0 <= i < |s| ==> IsSpace(s[i])
  }

  /** Drops the leading white space: what is left is a suffix that starts with a visible character. */
  function TrimStart(s: string): (r: string)
    ensures |r| <= |s| && r == s[|s| - |r|..]
    ensures IsBlank(s[..|s| - |r|])
    ensures r == [] || !IsSpace(r[0])
  {
    if s == [] || !IsSpace(s[0]) then s else TrimStart(s[1..])
  }

  /** Drops the trailing white space: what is left is a prefix that ends with a visible character. */
  function TrimEnd(s: string): (r: string)
    ensures |r| <= |s| && r == s[..|r|]
    ensures IsBlank(s[|r|..])
    ensures r == [] || !IsSpace(r[|r| - 1])
  {
    if s == [] || !IsSpace(s[|s| - 1]) then s else TrimEnd(s[..|s| - 1])
  }

  /** JavaScript's `s.trim()`. */
  function Trim(s: string): string
  {
    TrimEnd(TrimStart(s))
  }

  /** `!s.trim()` holds exactly for the blank texts: trimming leaves nothing precisely when every character is white space. */
  lemma TrimEmptyIffBlank(s: string)
    ensures Trim(s) == [] <==> IsBlank(s)
  {
    var a := TrimStart(s);
    if a != [] {
      assert s[|s| - |a|] == a[0];
    }
  }

  predicate IsDigit(c: char)
  {
    '0' <= c <= '9'
  }

  function DigitChar(d: nat): (c: char)
    requires d < 10
    ensures IsDigit(c) && c as int - '0' as int == d
  {
    ('0' as int + d) as char
  }

  /**
   * A count written in base ten, as Python's `f"{n}"` renders it, and as
   * JavaScript's `${n}` renders a count below 10^21.
   */
  function Decimal(n: nat): (r: string)
    ensures |r| >= 1
    ensures forall i :: 0 <= i < |r| ==> IsDigit(r[i])
    ensures r[0] == '0' ==> n == 0
  {
    if n < 10 then [DigitChar(n)] else Decimal(n / 10) + [DigitChar(n % 10)]
  }

  /** The value of a string of decimal digits. */
  function DecimalValue(s: string): nat
    requires forall i :: 0 <= i < |s| ==> IsDigit(s[i])
  {
    if s == [] then 0
    else DecimalValue(s[..|s| - 1]) * 10 + DigitValue(s[|s| - 1])
  }

  function DigitValue(c: char): nat
    requires IsDigit(c)
  {
    c as int - '0' as int
  }

  /** Reading back a rendered count gives the count. */
  lemma {:induction false} DecimalRoundTrip(n: nat)
    ensures DecimalValue(Decimal(n)) == n
  {
    if n >= 10 {
      var s := Decimal(n / 10);
      var t := Decimal(n);
      assert t == s + [DigitChar(n % 10)];
      assert t[..|t| - 1] == s;
      DecimalRoundTrip(n / 10);
    }
  }

  /** Distinct counts render as distinct strings. */
  lemma DecimalInjective(m: nat, n: nat)
    ensures Decimal(m) == Decimal(n) ==> m == n
  {
    DecimalRoundTrip(m);
    DecimalRoundTrip(n);
  }

  /** The summed length of a list of strings. */
  function TotalLength(parts: seq<string>): nat
  {
    if parts == [] then 0 else TotalLength(parts[..|parts| - 1]) + |parts[|parts| - 1]|
  }

  /** The pieces glue to nothing exactly when every piece is empty. */
  lemma {:induction false} TotalLengthZeroIffAllEmpty(parts: seq<string>)
    ensures TotalLength(parts) == 0 <==> forall i :: 0 <= i < |parts| ==> parts[i] == []
    decreases |parts|
  {
    if parts != [] {
      var front := parts[..|parts| - 1];
      TotalLengthZeroIffAllEmpty(front);
      assert forall i :: 0 <= i < |front| ==> front[i] == parts[i];
    }
  }

  /** Python's `sep.join(parts)`. */
  function Join(sep: string, parts: seq<string>): (r: string)
    ensures |r| == TotalLength(parts) + (if parts == [] then 0 else (|parts| - 1) * |sep|)
  {
    if parts == [] then []
    else if |parts| == 1 then parts[0]
    else Join(sep, parts[..|parts| - 1]) + sep + parts[|parts| - 1]
  }

  /** A single part is joined to itself. */
  lemma JoinSingle(sep: string, p: string)
    ensures Join(sep, [p]) == p
  {
  }

  /** Joining one more part appends the separator and then that part. */
  lemma JoinSnoc(sep: string, ps: seq<string>, p: string)
    requires ps != []
    ensures Join(sep, ps + [p]) == Join(sep, ps) + sep + p
  {
    assert (ps + [p])[..|ps|] == ps;
  }

  /**
   * Read from the front: the first part, the separator, then the rest
   * joined. With JoinSingle this says the parts appear in order with one
   * separator between neighbours.
   */
  lemma {:induction false} JoinCons(sep: string, p: string, ps: seq<string>)
    requires ps != []
    ensures Join(sep, [p] + ps) == p + sep + Join(sep, ps)
    decreases |ps|
  {
    if |ps| == 1 {
      assert [p] + ps == [p] + [ps[0]];
      JoinSnoc(sep, [p], ps[0]);
    } else {
      var front := ps[..|ps| - 1];
      var last := ps[|ps| - 1];
      assert ps == front + [last];
      assert [p] + ps == ([p] + front) + [last];
      JoinSnoc(sep, [p] + front, last);
      JoinCons(sep, p, front);
      JoinSnoc(sep, front, last);
    }
  }

  /** Python's `s[:n]` on a string: at most the first `n` characters. */
  function Take(s: string, n: nat): (r: string)
    ensures |r| == (if |s| <= n then |s| else n)
    ensures r == s[..|r|]
  {
    if |s| <= n then s else s[..n]
  }

  /** The pieces of a stream glued together in order. */
  function Concat(parts: seq<string>): (r: string)
    ensures |r| == TotalLength(parts)
  {
    if parts == [] then [] else Concat(parts[..|parts| - 1]) + parts[|parts| - 1]
  }

  /** Concatenation distributes over the splitting of the piece list. */
  lemma {:induction false} ConcatAppend(a: seq<string>, b: seq<string>)
    ensures Concat(a + b) == Concat(a) + Concat(b)
    decreases |b|
  {
    if b == [] {
      assert a + b == a;
    } else {
      var b', last := b[..|b| - 1], b[|b| - 1];
      assert b == b' + [last];
      assert a + b == (a + b') + [last];
      ConcatAppend(a, b');
      calc {
        Concat(a + b);
        Concat(a + b') + last;
        Concat(a) + Concat(b') + last;
        Concat(a) + Concat(b);
      }
    }
  }

  /** Where the trailing slash-free run of a path starts: just after its last slash, or at 0. */
  function BaseStart(path: string): (k: nat)
    ensures k <= |path|
    ensures forall i :: k <= i < |path| ==> path[i] != '/'
    ensures k > 0 ==> path[k - 1] == '/'
    decreases |path|
  {
    if path == [] then 0
    else if path[|path| - 1] == '/' then |path|
    else BaseStart(path[..|path| - 1])
  }

  /** POSIX `os.path.basename`: the longest suffix without a slash. */
  function BaseName(path: string): (r: string)
    ensures '/' !in r
    ensures |r| <= |path| && r == path[|path| - |r|..]
    ensures |r| < |path| ==> path[|path| - |r| - 1] == '/'
  {
    var r := path[BaseStart(path)..];
    assert forall j :: 0 <= j < |r| ==> r[j] == path[BaseStart(path) + j];
    r
  }
}

=== FILE: types.dfy ===
/**
 * The wire types shared by the browser client and the backend: the chat
 * message, the chat request and response, the upload response, and the two
 * small enumerations (role and provider) both sides agree on.
 */
module Types {

  /** An optional value: Python's `None`, TypeScript's optional field. */
  datatype Option<+T> = None | Some(value: T)

  /** The outcome of a step that may raise: a value, or the exception's text. */
  datatype Result<+T, +E> = Ok(value: T) | Err(error: E)

  /** Who wrote a message. */
  datatype Role = User | Assistant | System

  /** One chat message; immutable once created. */
  datatype Message = Message(role: Role, content: string)

  /** The language-model back ends a request may name. */
  datatype Provider = Ollama | OpenAI | Gemini | Anthropic

  /** The provider a request gets when it names none. */
  const DefaultProvider: Provider := Ollama

  /** The name a provider travels under in a request. */
  function ProviderName(p: Provider): string
  {
    match p
    case Ollama => "ollama"
    case OpenAI => "openai"
    case Gemini => "gemini"
    case Anthropic => "anthropic"
  }

  /** A chat turn as sent to the backend: the new message travels apart from the history. */
  datatype ChatRequest = ChatRequest(
    message: string,
    provider: Provider,
    model: Option<string>,
    history: seq<Message>)

  /** A request that gives only the message and takes every other field's default. */
  function RequestWithDefaults(message: string): ChatRequest
  {
    ChatRequest(message, DefaultProvider, None, [])
  }

  /** A cited source of an answer. */
  datatype DocumentSource = DocumentSource(source: string, page: Option<int>, contentSnippet: string)

  /** The answer to a chat request. */
  datatype ChatResponse = ChatResponse(response: string, sources: seq<DocumentSource>)

  /** The answer to an upload. */
  datatype UploadResponse = UploadResponse(filename: string, chunks: int, status: string)
}
